=== FILE: README.md ===
# arkivisto scan core, modelled in Dafny

arkivisto is a command-line tool that scans paper documents and archives them.
It asks the operator which configured scanner to use and how to scan:
single-sided feeder, duplex feeder, manual duplex, or flatbed with a page count.
It also asks for the resolution.

A document scan then goes through these steps:

- empty the staging directory `current` in the scans cache;
- run `scanimage` into it;
- rename it to a timestamped document directory, but only after every `scanimage` run succeeded.

Processing a document directory then finds the scanned pages, which are `.tif` names without `_`.
A directory without pages is deleted.
Otherwise these tools run in order, and any failure stops the rest:

- `magick`, once per page, to improve the contrast;
- `tiffcp`, to combine the pages;
- `magick`, to convert the result to PDF;
- `ocrmypdf` inside Docker, to produce `_final.pdf`.

A progress bar counts the pages plus four.

The project models this core as pure functions:

- `base.dfy`: `Option`, `Outcome` and `Result`.
- `text.dfy`: Rust's `str::replace` and the decimal rendering that `format!` uses for numbers.
- `filesystem.dfy`: an abstract filesystem, a map from paths to files and directories. It provides the `std::fs` primitives the core calls: `remove_dir_all`, `create_dir` and `rename`.
- `fs_utils.dfy`: `ensure_empty_dir_exists` and `copy_dir_file_contents`.
- `config.dfy`: the `Scanner` and `ScannerSources` records.
- `scan.dfy`: the scan modes offered, the resolutions and their DPI, and how a mode resolves to a source. It also covers the exact `scanimage` argument vector, the sequence of `scanimage` runs, scanner selection, and the whole `scan_document`.
- `process.dfy`: `process_document`: page discovery, the per-page contrast loop, the later stages, the planned tool invocations, the progress counter and the files each stage writes.

Outside effects are inputs to the model:

- Each interactive prompt's answer is an `Option`, where `None` means the operator cancelled. An empty mode menu has no answer to give: the prompt refuses it, and the model reports `NoScanModes`.
- Each `scanimage` exit status is a `bool`.
- Each post-processing tool run is a `ToolRun`: either it succeeded and wrote its output, or it failed, possibly after writing part of its output.
- The order in which `read_dir` yields entries is a listing that names each child exactly once.
- The timestamp of the document directory is a string.

## Model

| member | source | states |
|---|---|---|
| Text.ReplaceAllRoundTrip | src/process.rs:62 | Replacing every occurrence of a pattern is undone by replacing back, when the replacement's first character never occurs in the input. |
| Text.ReplaceAllInjective | src/process.rs:62 | Under the same condition, two different inputs never map to the same replaced string. |
| Text.ReplaceAllIntroduces | src/process.rs:62 | If the pattern occurs, the replacement's first character appears in the result. |
| Text.ParseNatToString | src/scan.rs:165-171 | A number rendered in decimal is a non-empty digit string that parses back to the same number. |
| Text.NatToStringInjective | src/scan.rs:165 | Different numbers render to different decimal strings. |
| FileSystem.RemoveAll | src/fs_utils.rs:17 | Exactly the entry and its subtree disappear; every other entry keeps its contents. |
| FileSystem.CreateDir | src/fs_utils.rs:19 | Succeeds iff the path is absent and its parent is a directory. On success it adds exactly that path, as a directory. On failure nothing changes. |
| FileSystem.Rename | src/scan.rs:330 | Under the POSIX `rename` rules, a rename succeeds iff the source exists and either it is the destination, or neither lies within the other, the destination's parent is a directory, and the destination is absent, an empty directory replaced by a directory, or a file replaced by a file. A successful rename with distinct source and destination removes the source and puts the moved node at the destination. Every path below the source reappears below the destination with the same contents, and nothing remains below the source. Paths outside both subtrees keep their presence and contents. A failed rename changes nothing. |
| FsUtils.EnsureEmptyDirExists | src/fs_utils.rs:10-21 | A regular file at the path is refused, and nothing changes. A missing parent makes creation fail. It succeeds exactly when the path is absent or a directory and its parent is a directory. Then the path is a directory with nothing below it. Nothing outside the path's subtree changes. |
| FsUtils.EnsureEmptyDirExistsWellFormed | src/fs_utils.rs:17-19 | Removing and recreating the directory keeps every entry attached to a parent directory. |
| FsUtils.EnsureEmptyDirExistsIdempotent | src/fs_utils.rs:10-21 | A second call after a successful one succeeds again and leaves the filesystem exactly as it was. |
| FsUtils.CopyEntries | src/fs_utils.rs:33-39 | The copy loop succeeds exactly when no listed regular file's target `dst/<name>` is a directory. |
| FsUtils.CopyEntriesCopies | src/fs_utils.rs:33-39 | After a successful loop, every listed regular file's contents are at `dst/<name>`. |
| FsUtils.CopyEntriesFrame | src/fs_utils.rs:33-39 | The loop removes nothing. Every path that is not the target of a listed regular file keeps its presence and its contents. |
| FsUtils.CopyDirFileContents | src/fs_utils.rs:27-41 | A destination that is not a directory is refused before anything is read. A source that is not a directory fails the read. Success means every top-level regular file of the source was copied. Copying a directory onto itself instead empties each of its regular files, because the copy truncates its target before reading it. Only the targets of those files can change. |
| FsUtils.CopySkipsDirectories | src/fs_utils.rs:35-38 | A subdirectory of the source is never copied: its name in the destination stays as it was. |
| Scan.Options | src/scan.rs:31-46 | A mode is on the menu iff the source it needs is configured. Manual duplex reuses the single-sided feeder, and flatbed appears with page count 0. The menu order is single-sided, duplex, manual duplex, flatbed, with no repeats. |
| Scan.OptionsExamples | src/scan.rs:31-46 | A scanner with no sources offers nothing. One with only the single-sided feeder offers exactly single-sided and manual duplex. |
| Scan.DefaultResolution | src/scan.rs:66-70 | The default resolution scans at 300 DPI. |
| Scan.ChooseResolution | src/scan.rs:306-316 | High resolution (600 DPI) is used iff the option was ticked, otherwise 300 DPI. |
| Scan.AsDpiValues | src/scan.rs:57-64 | Normal is 300 DPI and High is 600 DPI, so the DPI tells the two resolutions apart. |
| Scan.ResolveSource | src/scan.rs:86-101 | A mode resolves iff its source is configured. The result is the scanner's own name for that source, and a missing source is reported as unavailable. |
| Scan.OfferedModesResolve | src/scan.rs:96-101 | Every mode on the menu resolves to a source, for any flatbed page count. |
| Scan.ScanimageArgs | src/scan.rs:160-181 | Gives the position and text of every argument in order: format, batch template, batch start 1000 + offset, the page count only if given, DPI, the A4 bounds, source, then the scanner's extra arguments verbatim. |
| Scan.ScanimageArgsDecode | src/scan.rs:160-181 | Reading the vector back gives exactly the batch template, the first page number 1000 + offset, the page count, the DPI, the source and the extra arguments, so no two requests share a vector. The batch template is the staging directory as displayed followed by `/%d.tif`. |
| Scan.FirstPageFiles | src/scan.rs:143-146 | Offset 0 writes `1000.tif` first and offset 4 writes `1004.tif`. Different offsets never share a first file. |
| Scan.FlatbedPages | src/scan.rs:115-127 | The j-th run scans exactly page j with a count of one. The scan passes iff every remaining page was confirmed and scanned, and then it made one run per page. |
| Scan.FlatbedStopsAt | src/scan.rs:115-127 | The first page not both confirmed and scanned decides the end. A declined or cancelled confirmation stops before that page's run, and a failed run stops right after it. |
| Scan.RunScanimage | src/scan.rs:76-132 | A mode without a source makes no run. A feeder mode makes one unbounded batch at offset 0. It passes iff that run succeeded, and otherwise fails with `ScanimageFailed`. Flatbed makes one single-page batch per page, at offsets 0, 1, …, and passes iff every page was confirmed and scanned. |
| Scan.FlatbedDeclined | src/scan.rs:123-125 | Declining page k after k - 1 good pages aborts with `UserAborted` after exactly k - 1 runs. |
| Scan.SelectScanner | src/scan.rs:250-263 | A single scanner is returned without asking. An empty list is refused. Otherwise the operator's pick is returned, and a cancelled prompt is an error. |
| Scan.SelectSingleScannerIgnoresPrompt | src/scan.rs:252-255 | With one scanner, any prompt answer gives that scanner. |
| Scan.ScanDocument | src/scan.rs:274-333 | If emptying the staging directory fails, nothing runs. A failed scan leaves the emptied staging directory in place, uncommitted. The recorded resolution is the ticked option and the source is the chosen mode's source. Settings are recorded before any run. The runs are exactly those of `run_scanimage` for the chosen mode. A failed scan leaves the emptied staging directory as the final state. After the runs pass, the result is the rename of the staging directory to the timestamped directory, and the scan passes iff that rename does. Success needs at least one run. |
| Scan.ScanDocumentFollowsAnswers | src/scan.rs:285-316 | Once staging succeeded, a scanner without sources fails with `NoScanModes`, since its mode menu is empty. Otherwise the scan goes ahead exactly when every prompt was answered. It scans with the menu entry the operator picked, and a flatbed entry gets the operator's page count. A cancelled prompt ends the scan with `PromptCancelled` before any run. |
| Scan.ScanAndCommit | src/scan.rs:323-330 | The rename happens only after every `scanimage` run passed, and the scan fails with the run's error otherwise. After success the staging name is gone and the timestamped directory exists. |
| Scan.ChosenModeIsExecutable | src/scan.rs:286-303 | The mode a scan runs with has a source, and a flatbed scan runs with the operator's page count of at least one rather than the menu's 0. |
| Scan.FailedScanStaysStaged | src/scan.rs:323-330 | If the first `scanimage` run fails, the scan fails and the staging directory is not renamed. |
| Scan.FreshTimestampCommits | src/scan.rs:327-330 | In an existing scans directory whose staging name is free or a directory, staging succeeds. The staged directory is then always renamed successfully to a timestamp that does not exist yet. |
| Scan.TwoPageFlatbedScan | src/scan.rs:109-127 | Take a flatbed-only scanner, an existing scans directory, a staging name that is not a file, and a fresh timestamp. If both pages are confirmed and scanned, there are exactly two single-page runs at offsets 0 and 1, at 300 DPI, and the document is committed. |
| Process.DiscoverPages | src/process.rs:14-25 | The pages are exactly the listed `.tif` names without `_`, in listing order and without repeats. |
| Process.ProcessedNameFacts | src/process.rs:62 | A processed name contains `_`, so a later discovery skips it. It differs from the combined and final names. Replacing back recovers the page name. |
| Process.ProcessedNameInjective | src/process.rs:62 | Two pages never share a processed file. |
| Process.ContrastPages | src/process.rs:53-82 | At most one `magick` run per page. One progress tick per run, taken before the run. No directory is created or removed. |
| Process.ContrastPagesPass | src/process.rs:53-82 | The contrast loop passes iff every page's run succeeds, and then every page was run. |
| Process.ContrastPagesFail | src/process.rs:73-80 | A failed loop stopped at the first failing page, with every earlier page succeeding. The error names `magick`. |
| Process.ContrastPagesCalls | src/process.rs:61-72 | The j-th run is `magick <page> -auto-level -level 10%,90% <processed page>` for the j-th page. |
| Process.CombineReadsContrastOutputs | src/process.rs:85-93 | `tiffcp -c lzw` reads the files the contrast runs write, in page order, and writes the combined file, the next planned output. |
| Process.ConvertReadsCombined | src/process.rs:104-112 | The PDF conversion reads the combined TIFF and writes the combined PDF, with JPEG compression. |
| Process.OcrReadsConverted | src/process.rs:123-145 | The OCR container mounts the document directory at `/document`. It reads the combined PDF and writes the final PDF under the same names as on the host. |
| Process.ContrastPagesGrows | src/process.rs:53-82 | The loop removes nothing, and regular files stay regular files. |
| Process.ContrastPagesAdds | src/process.rs:53-82 | Every path the loop creates is the processed file of a page it ran. |
| Process.ContrastPagesKeeps | src/process.rs:53-82 | Every path that is not the processed file of a page it ran keeps its contents. |
| Process.ContrastPagesWritten | src/process.rs:53-82 | Every successful page run left its processed file behind as a regular file. |
| Process.Stage | src/process.rs:88-102 | Once a run has failed, a stage is skipped. Otherwise the run is recorded. Success writes the output and advances the bar by one. Failure names the program and changes nothing except possibly leaving a partial output file. |
| Process.AfterFailure | src/process.rs:66-80 | A failed run can leave part of its output where a file may be written. It removes nothing, creates no directory, and changes no other path. |
| Process.PipelineTrace | src/process.rs:43-154 | The runs are always a non-empty prefix of the plan, in plan order. The bar's total is pages + 4. Its position is one per run plus the loop's closing tick on success, so it never passes the total and reaches it exactly on success, when every planned run was made. |
| Process.PipelineStopsAtFirstFailure | src/process.rs:53-153 | The pipeline passes iff every planned run succeeds. Otherwise its last run is the first failing one, every earlier run succeeded, and the error names that run's program. |
| Process.PipelineFiles | src/process.rs:53-154 | Nothing is removed. Only the outputs of the runs made are created or changed, and every successful run left its output as a regular file. |
| Process.PlannedOutputsAreDerived | src/process.rs:61-144 | Every planned output is a file directly in the document directory whose name contains `_`. |
| Process.PlannedOutputsDistinct | src/process.rs:61-144 | Distinct pages give pairwise distinct planned outputs. |
| Process.PipelineKeepsPages | src/process.rs:61-144 | No scanned page is created, removed or changed by the pipeline. |
| Process.PipelineLeavesLaterOutputs | src/process.rs:94-153 | The outputs of runs never made are untouched. After a page fails, no combined file appears that was not there before. |
| Process.ProcessDocumentFollowsPlan | src/process.rs:43-154 | For a directory with pages, the bar's total is pages + 4. The runs made are a non-empty prefix of the plan, and processing passes iff every planned run succeeds. |
| Process.ProcessDocumentNoPages | src/process.rs:27-33 | Processing fails with no pages exactly when the listing holds no page name. Then no tool runs, the directory and its subtree are gone, and nothing else changes. |
| Process.ProcessDocumentRediscovers | src/process.rs:14-25 | After processing, the directory still exists and a new listing finds exactly the same pages. |

## Left out

- Process spawning, output capture, exit codes and stderr. Each run is an input; starting the program and a nonzero exit both count as a failed run.
- Error texts. Errors are variants: `ToolFailed(program)` names `magick`, `tiffcp` or `docker` instead of the message text.
- Interactive prompts (`inquire`). Their answers are inputs, and the page-count prompt's validator is the assumption that its answer is at least one.
- Progress bar messages and spinners (`indicatif`). The position and total of the processing bar are modelled.
- `fake_scanimage` (the `testdata` copy after a two-second sleep). It is left out as development scaffolding; the copy it does is `FsUtils.CopyDirFileContents`.
- The cache directory lookup (`app_dirs`) and the clock (`chrono`). The scans directory and the timestamp are inputs.
- The pages `scanimage` writes. The staging directory stays as it was emptied, and page files are what the later listing reports.
- Panics: `read_dir(...).expect`, non-UTF-8 file names and the `page_count > 0` assertion. They become preconditions: the directory exists and is listed, and a flatbed mode has a positive page count.
- A failure of `directory.to_str()` before the OCR run. Paths here are always text.
- `remove_dir_all` failing partway. It always succeeds in the model.
- A tool that writes its output where a directory is, which counts as a failed run. Any other failure, and any partial output it leaves, is the run's input.
- Manual duplex is scanned exactly like single-sided, as in the source: the flip-the-stack step is not implemented there.
- Integer widths: `1000 + start` and the page count are unbounded naturals rather than `usize`, because no reachable value comes near the limit.
- `Config::load`, `args.rs` and `main.rs`. Loading TOML, the command line and the archive step are not part of this model.
- The scanner's device name is not modelled in any argument. The source never passes it to `scanimage`: the vector holds only the fields above and the scanner's extra arguments.
- Scan.ScanDocument: records each run as its batch offset and count together with the chosen `Settings`, not the full argument vector; `Scan.ScanimageArgs` builds that vector from them.
- Process.ProcessDocument: requires the document directory to exist and be listed, because the source panics otherwise.

Details of the source that the model keeps:

- `select_scanner` has no empty-list check. An empty list reaches the selection prompt, which refuses an empty menu; the model reports this as `NoScanners`.
- The contrast loop ticks the progress bar before each page's run, not after it. A page whose run fails has already been counted.
- Tool failures carry only a message, not an exit code or stderr excerpt.

=== FILE: base.dfy ===
/** Failure-carrying values shared by every module of the model.

    The source uses `anyhow::Result<()>` everywhere; the model replaces the
    opaque error with a typed one per component (see FsError, ScanError and
    ProcessError) and the unit success with `Pass`.
 */
module Base {

  /** `Option<T>` as in Rust: used for the scanner's optional sources and for
      prompt answers, where `None` stands for a cancelled prompt. */
  datatype Option<+T> = None | Some(value: T)

  /** A `Result<(), E>`: either the operation completed, or it failed with `error`. */
  datatype Outcome<+E> = Pass | Fail(error: E)

  /** A `Result<T, E>` that carries a value on success. */
  datatype Result<+T, +E> = Ok(value: T) | Err(error: E)
}

=== FILE: config.dfy ===
/** The configuration records of `src/config.rs` that the scanner code reads.
    Loading them from TOML is not part of this model. */
module Config {
  import opened Base

  /** Which scan sources a scanner offers, each under its scanner-specific name
      (one scanner calls the feeder "ADF", another "Automatic Document Feeder"). */
  datatype ScannerSources = ScannerSources(
    adfSingle: Option<string>,
    adfDuplex: Option<string>,
    flatbed: Option<string>)

  /** One configured scanner: its identifier, its SANE device name, extra
      arguments passed to `scanimage` verbatim, and its sources. */
  datatype Scanner = Scanner(
    id: string,
    deviceName: string,
    additionalArgs: seq<string>,
    sources: ScannerSources)
}

=== FILE: filesystem.dfy ===
/** An abstract filesystem: a finite map from absolute paths (sequences of
    names) to nodes, with the three primitives the source uses from `std::fs`
    (`remove_dir_all`, `create_dir`, `rename`) and the write an external tool
    performs when it creates its output file. */
module FileSystem {
  import opened Base

  newtype byte = x: int | 0 <= x < 256

  /** An absolute path: the names from the root down; `[]` is the root. */
  type Path = seq<string>

  datatype Node = File(data: seq<byte>) | Dir

  /** Every existing path and what is there. */
  type Fs = map<Path, Node>

  datatype FsError =
    | NotADirectory       // the path exists but is a regular file
    | AlreadyExists       // `create_dir` on a path that exists
    | CreateFailed        // `create_dir` without an existing parent directory
    | RenameFailed        // `rename` refused by the filesystem
    | DestinationInvalid  // the copy destination is missing or not a directory
    | ReadFailed          // `read_dir` on a path that is not a directory
    | CopyFailed          // `fs::copy` onto a path that is a directory

  /** The filesystem after an operation, and whether the operation succeeded.
      A failing operation may already have changed the filesystem. */
  datatype Effect = Effect(fs: Fs, outcome: Outcome<FsError>)

  predicate IsDir(fs: Fs, p: Path)
  {
    p in fs && fs[p].Dir?
  }

  predicate IsFile(fs: Fs, p: Path)
  {
    p in fs && fs[p].File?
  }

  /** `p` is `root` or lies below it. */
  predicate Within(root: Path, p: Path)
  {
    |root| <= |p| && p[..|root|] == root
  }

  function Parent(p: Path): Path
    requires |p| > 0
  {
    p[..|p| - 1]
  }

  predicate ParentIsDir(fs: Fs, p: Path)
  {
    |p| > 0 && IsDir(fs, Parent(p))
  }

  /** The root is a directory and every other entry hangs off a directory. */
  predicate WellFormed(fs: Fs)
  {
    && IsDir(fs, [])
    && forall p | p in fs && p != [] :: IsDir(fs, Parent(p))
  }

  /** `d` has no entries below it. */
  predicate NoEntriesBelow(fs: Fs, d: Path)
  {
    forall q | q in fs && Within(d, q) :: q == d
  }

  /** `listing` is a `read_dir` of `d`: each child name of `d` exactly once,
      in whatever order the filesystem yields them. */
  ghost predicate Lists(fs: Fs, d: Path, listing: seq<string>)
  {
    && (forall i, j | 0 <= i < j < |listing| :: listing[i] != listing[j])
    && (forall n :: n in listing <==> d + [n] in fs)
  }

  /** Paths outside the subtree at `root` are as they were. */
  ghost predicate SameOutside(fs: Fs, fs': Fs, root: Path)
  {
    && (forall q | !Within(root, q) :: q in fs <==> q in fs')
    && (forall q | q in fs && !Within(root, q) :: fs'[q] == fs[q])
  }

  /** The path as `Path::display` shows it. */
  function Render(p: Path): string
  {
    if |p| == 0 then "/" else RenderNames(p)
  }

  function RenderNames(p: Path): string
  {
    if |p| == 0 then "" else RenderNames(p[..|p| - 1]) + "/" + p[|p| - 1]
  }

  lemma RenderJoin(p: Path, name: string)
    ensures Render(p + [name]) == (if |p| == 0 then "/" else Render(p) + "/") + name
  {
    var q := p + [name];
    assert q[..|q| - 1] == p && q[|q| - 1] == name;
    assert RenderNames(q) == RenderNames(p) + "/" + name;
  }

  /** `fs::remove_dir_all`: the entry at `p` and everything below it disappear. */
  function RemoveAll(fs: Fs, p: Path): (fs': Fs)
    ensures forall q :: q in fs' <==> q in fs && !Within(p, q)
    ensures forall q | q in fs' :: fs'[q] == fs[q]
  {
    map q | q in fs && !Within(p, q) :: fs[q]
  }

  /** `fs::create_dir`: a new, empty directory; the parent must already be one. */
  function CreateDir(fs: Fs, p: Path): (r: Effect)
    ensures r.outcome.Pass? <==> p !in fs && ParentIsDir(fs, p)
    ensures r.outcome.Pass? ==> r.fs.Keys == fs.Keys + {p} && IsDir(r.fs, p)
    ensures r.outcome.Fail? ==> r.fs == fs
    ensures forall q | q in fs :: q in r.fs && r.fs[q] == fs[q]
  {
    if p in fs then Effect(fs, Fail(AlreadyExists))
    else if !ParentIsDir(fs, p) then Effect(fs, Fail(CreateFailed))
    else Effect(fs[p := Dir], Pass)
  }

  /** An external tool writing its output file at `p`: it can create or
      replace a regular file in an existing directory, never a directory. */
  predicate CanWriteFile(fs: Fs, p: Path)
  {
    ParentIsDir(fs, p) && !IsDir(fs, p)
  }

  /** Two roots of one path lie one within the other. */
  lemma WithinBoth(a: Path, b: Path, p: Path)
    requires Within(a, p) && Within(b, p)
    ensures Within(a, b) || Within(b, a)
  {
    if |a| <= |b| {
      assert b[..|a|] == p[..|a|];
    } else {
      assert a[..|b|] == p[..|b|];
    }
  }

  /** The entries of the subtree at `from`, relocated below `to`. */
  function Relocated(fs: Fs, from: Path, to: Path): (m: Fs)
    ensures forall q :: q in m <==> Within(to, q) && from + q[|to|..] in fs
    ensures forall q | q in m :: Within(to, q) && from + q[|to|..] in fs && m[q] == fs[from + q[|to|..]]
  {
    var image := set k | k in fs && Within(from, k) :: to + k[|from|..];
    var m := map q | q in image && Within(to, q) && from + q[|to|..] in fs :: fs[from + q[|to|..]];
    assert forall q :: q in m <==> Within(to, q) && from + q[|to|..] in fs by {
      forall q
        ensures q in m <==> Within(to, q) && from + q[|to|..] in fs
      {
        if Within(to, q) && from + q[|to|..] in fs {
          var k := from + q[|to|..];
          assert Within(from, k) && k[|from|..] == q[|to|..];
          assert to + k[|from|..] == q;
          assert q in image;
        }
      }
    }
    m
  }

  /** `fs::rename(from, to)` with POSIX `rename(2)` rules: a directory may
      replace only an empty directory, a file only a file, and nothing may be
      moved into its own subtree (nor onto one of its ancestors, which is
      never an empty directory). */
  function Rename(fs: Fs, from: Path, to: Path): (r: Effect)
    ensures r.outcome.Pass? <==>
      && from in fs
      && (|| from == to
          || (&& !Within(from, to) && !Within(to, from) && ParentIsDir(fs, to)
              && (|| to !in fs
                  || (fs[from].Dir? && IsDir(fs, to) && NoEntriesBelow(fs, to))
                  || (fs[from].File? && IsFile(fs, to)))))
    ensures r.outcome.Pass? && from != to ==>
      && from !in r.fs
      && to in r.fs && r.fs[to] == fs[from]
      && (forall s: Path :: from + s in fs <==> to + s in r.fs)
    ensures r.outcome.Pass? && from != to ==>
      && (forall q | !Within(from, q) && !Within(to, q) :: (q in r.fs <==> q in fs) && (q in fs ==> r.fs[q] == fs[q]))
      && (forall s: Path :: from + s !in r.fs)
      && (forall s: Path | from + s in fs :: r.fs[to + s] == fs[from + s])
    ensures r.outcome.Fail? ==> r.fs == fs
  {
    if from !in fs then Effect(fs, Fail(RenameFailed))
    else if from == to then Effect(fs, Pass)
    else if Within(from, to) || Within(to, from) || !ParentIsDir(fs, to) then Effect(fs, Fail(RenameFailed))
    else if to in fs && !(fs[from].Dir? && IsDir(fs, to) && NoEntriesBelow(fs, to))
                     && !(fs[from].File? && IsFile(fs, to))
    then Effect(fs, Fail(RenameFailed))
    else
      var kept := map q | q in fs && !Within(from, q) && !Within(to, q) :: fs[q];
      var moved := Relocated(fs, from, to);
      var fs' := kept + moved;
      assert to + [] == to && from + [] == from;
      assert forall s: Path :: from + s in fs <==> to + s in fs' by {
        forall s: Path
          ensures from + s in fs <==> to + s in fs'
        {
          assert Within(to, to + s) && (to + s)[|to|..] == s;
        }
      }
      assert from !in kept && from !in moved;
      assert to[|to|..] == [] && to in moved && moved[to] == fs[from];
      forall s: Path
        ensures from + s !in fs'
        ensures from + s in fs ==> fs'[to + s] == fs[from + s]
      {
        assert Within(from, from + s) && (to + s)[|to|..] == s;
        if from + s in moved {
          WithinBoth(from, to, from + s);
        }
      }
      Effect(fs', Pass)
  }
}

=== FILE: fs_utils.dfy ===
/** The two directory helpers of `src/fs_utils.rs`, over the abstract filesystem. */
module FsUtils {
  import opened Base
  import opened FileSystem

  /** In a well-formed filesystem nothing exists below a missing path. */
  lemma {:induction false} NothingBelowMissing(fs: Fs, p: Path, q: Path)
    requires WellFormed(fs)
    requires q in fs && Within(p, q)
    ensures p in fs
    decreases |q|
  {
    if q != p {
      assert |q| > |p| && q != [];
      var up := Parent(q);
      assert up[..|p|] == q[..|p|];
      NothingBelowMissing(fs, p, up);
    }
  }

  /** `ensure_empty_dir_exists`: refuse a regular file; otherwise remove
      whatever is at `p` and create `p` afresh as an empty directory, which
      needs the parent to be a directory already. */
  function EnsureEmptyDirExists(fs: Fs, p: Path): (r: Effect)
    ensures p in fs && !fs[p].Dir? ==> r == Effect(fs, Fail(NotADirectory))
    ensures p !in fs && !ParentIsDir(fs, p) ==> r == Effect(fs, Fail(CreateFailed))
    ensures r.outcome.Pass? <==> (p !in fs || fs[p].Dir?) && ParentIsDir(fs, p)
    ensures r.outcome.Pass? ==> IsDir(r.fs, p)
    ensures r.outcome.Pass? && (p in fs || WellFormed(fs)) ==> NoEntriesBelow(r.fs, p)
    ensures SameOutside(fs, r.fs, p)
  {
    if p in fs then
      if !fs[p].Dir? then Effect(fs, Fail(NotADirectory))
      else
        assert |p| > 0 ==> !Within(p, Parent(p));
        CreateDir(RemoveAll(fs, p), p)
    else
      var r := CreateDir(fs, p);
      assert WellFormed(fs) && r.outcome.Pass? ==> NoEntriesBelow(r.fs, p) by {
        if WellFormed(fs) && r.outcome.Pass? {
          forall q | q in r.fs && Within(p, q)
            ensures q == p
          {
            if q != p {
              NothingBelowMissing(fs, p, q);
            }
          }
        }
      }
      r
  }

  /** A well-formed filesystem stays well-formed. */
  lemma EnsureEmptyDirExistsWellFormed(fs: Fs, p: Path)
    requires WellFormed(fs)
    requires EnsureEmptyDirExists(fs, p).outcome.Pass?
    ensures WellFormed(EnsureEmptyDirExists(fs, p).fs)
  {
    var fs' := EnsureEmptyDirExists(fs, p).fs;
    assert !Within(p, []);
    forall q | q in fs' && q != []
      ensures IsDir(fs', Parent(q))
    {
      if Within(p, q) {
        assert q == p;
      } else {
        assert q in fs;
        assert !Within(p, Parent(q));
      }
    }
  }

  /** Calling `ensure_empty_dir_exists` again after a success changes nothing
      and succeeds again. */
  lemma EnsureEmptyDirExistsIdempotent(fs: Fs, p: Path)
    requires EnsureEmptyDirExists(fs, p).outcome.Pass?
    requires p in fs || WellFormed(fs)
    ensures EnsureEmptyDirExists(EnsureEmptyDirExists(fs, p).fs, p)
            == Effect(EnsureEmptyDirExists(fs, p).fs, Pass)
  {
    var fs1 := EnsureEmptyDirExists(fs, p).fs;
    assert !Within(p, Parent(p));
    var r2 := EnsureEmptyDirExists(fs1, p);
    assert r2.outcome.Pass?;
    var fs2 := r2.fs;
    forall q
      ensures q in fs2 <==> q in fs1
      ensures q in fs2 ==> fs2[q] == fs1[q]
    {
      if Within(p, q) {
        assert q in fs2 ==> q == p;
        assert q in fs1 ==> q == p;
      }
    }
    assert fs2 == fs1;
  }

  // ---------------------------------------------------------------------------

  /** `q` is `dst/<name>` for a name in `listing` that is a regular file in `src`. */
  predicate IsCopyTarget(fs: Fs, src: Path, dst: Path, listing: seq<string>, q: Path)
  {
    && |q| == |dst| + 1
    && q[..|dst|] == dst
    && q[|dst|] in listing
    && IsFile(fs, src + [q[|dst|]])
  }

  /** Every listed regular file of `src` has a place to go: `dst/<name>` is not a directory. */
  predicate CopyTargetsWritable(fs: Fs, src: Path, dst: Path, listing: seq<string>)
  {
    forall n | n in listing && IsFile(fs, src + [n]) :: !IsDir(fs, dst + [n])
  }

  /** The loop of `copy_dir_file_contents` over the entries `names`, in order:
      regular files are copied to `dst/<name>`, everything else is skipped, and
      the first copy onto a directory stops the loop. */
  function CopyEntries(fs: Fs, src: Path, dst: Path, names: seq<string>): (r: Effect)
    requires IsDir(fs, dst)
    requires forall i, j | 0 <= i < j < |names| :: names[i] != names[j]
    ensures r.outcome.Pass? <==> CopyTargetsWritable(fs, src, dst, names)
    decreases |names|
  {
    if |names| == 0 then Effect(fs, Pass)
    else
      var n := names[0];
      var rest := names[1..];
      if !IsFile(fs, src + [n]) then CopyEntries(fs, src, dst, rest)
      else if IsDir(fs, dst + [n]) then Effect(fs, Fail(CopyFailed))
      else
        var fs1 := fs[dst + [n] := fs[src + [n]]];
        CopyStepKeepsOthers(fs, src, dst, names);
        CopyEntries(fs1, src, dst, rest)
  }

  /** Copying the first name leaves every later name's source and target as
      they were. */
  lemma CopyStepKeepsOthers(fs: Fs, src: Path, dst: Path, names: seq<string>)
    requires |names| > 0 && IsDir(fs, dst)
    requires forall i, j | 0 <= i < j < |names| :: names[i] != names[j]
    ensures var fs1 := fs[dst + [names[0]] := if src + [names[0]] in fs then fs[src + [names[0]]] else Dir];
      && IsDir(fs1, dst)
      && (forall i, j | 0 <= i < j < |names[1..]| :: names[1..][i] != names[1..][j])
      && forall m | m in names[1..] ::
           && IsFile(fs1, src + [m]) == IsFile(fs, src + [m])
           && IsDir(fs1, dst + [m]) == IsDir(fs, dst + [m])
           && (src + [m] in fs ==> fs1[src + [m]] == fs[src + [m]])
  {
    var n := names[0];
    assert forall m | m in names[1..] :: m != n;
    assert dst + [n] != dst;
    forall m | m in names[1..]
      ensures src + [m] != dst + [n] && dst + [m] != dst + [n]
    {
      assert (src + [m])[|src|] == m && (dst + [m])[|dst|] == m && (dst + [n])[|dst|] == n;
    }
  }

  /** After a successful loop every listed regular file of `src` has its
      contents at `dst/<name>`. */
  lemma {:induction false} CopyEntriesCopies(fs: Fs, src: Path, dst: Path, names: seq<string>)
    requires IsDir(fs, dst)
    requires forall i, j | 0 <= i < j < |names| :: names[i] != names[j]
    ensures var r := CopyEntries(fs, src, dst, names);
      r.outcome.Pass? ==>
        forall n | n in names && IsFile(fs, src + [n]) :: dst + [n] in r.fs && r.fs[dst + [n]] == fs[src + [n]]
    decreases |names|
  {
    if |names| > 0 {
      var n := names[0];
      CopyStepKeepsOthers(fs, src, dst, names);
      if !IsFile(fs, src + [n]) {
        CopyEntriesCopies(fs, src, dst, names[1..]);
      } else if !IsDir(fs, dst + [n]) {
        var fs1 := fs[dst + [n] := fs[src + [n]]];
        CopyEntriesCopies(fs1, src, dst, names[1..]);
        CopyEntriesFrame(fs1, src, dst, names[1..]);
        var target := dst + [n];
        assert target[..|dst|] == dst && target[|dst|] == n;
        assert !IsCopyTarget(fs1, src, dst, names[1..], target);
      }
    }
  }

  /** The loop touches nothing but copy targets, and removes nothing. */
  lemma {:induction false} CopyEntriesFrame(fs: Fs, src: Path, dst: Path, names: seq<string>)
    requires IsDir(fs, dst)
    requires forall i, j | 0 <= i < j < |names| :: names[i] != names[j]
    ensures var r := CopyEntries(fs, src, dst, names);
      && (forall q | !IsCopyTarget(fs, src, dst, names, q) :: (q in r.fs <==> q in fs))
      && (forall q | q in fs && !IsCopyTarget(fs, src, dst, names, q) :: r.fs[q] == fs[q])
      && (forall q | q in fs :: q in r.fs)
    decreases |names|
  {
    if |names| > 0 {
      var n := names[0];
      CopyStepKeepsOthers(fs, src, dst, names);
      if !IsFile(fs, src + [n]) {
        CopyEntriesFrame(fs, src, dst, names[1..]);
        assert forall q | IsCopyTarget(fs, src, dst, names[1..], q) :: IsCopyTarget(fs, src, dst, names, q);
      } else if !IsDir(fs, dst + [n]) {
        var target := dst + [n];
        var fs1 := fs[target := fs[src + [n]]];
        CopyEntriesFrame(fs1, src, dst, names[1..]);
        assert target[..|dst|] == dst && target[|dst|] == n;
        assert IsCopyTarget(fs, src, dst, names, target);
        forall q | IsCopyTarget(fs1, src, dst, names[1..], q)
          ensures IsCopyTarget(fs, src, dst, names, q)
        {
          assert q[|dst|] in names[1..];
        }
      }
    }
  }

  /** `fs::copy` of each listed regular file of `d` onto itself: the copy
      opens its target for writing, which truncates the very file it is about
      to read, so each of them ends up empty. */
  function TruncateFiles(fs: Fs, d: Path, listing: seq<string>): (fs': Fs)
    ensures fs'.Keys == fs.Keys
    ensures forall q | q in fs && !IsCopyTarget(fs, d, d, listing, q) :: fs'[q] == fs[q]
  {
    map q | q in fs :: if IsCopyTarget(fs, d, d, listing, q) then File([]) else fs[q]
  }

  /** `copy_dir_file_contents(src, dst)` where `listing` is what `read_dir(src)`
      yields: the destination must be an existing directory, the source must be
      readable, and then only the top-level regular files of `src` are copied.
      Copying a directory onto itself empties each of its regular files. */
  function CopyDirFileContents(fs: Fs, src: Path, dst: Path, listing: seq<string>): (r: Effect)
    requires IsDir(fs, src) ==> Lists(fs, src, listing)
    ensures !IsDir(fs, dst) ==> r == Effect(fs, Fail(DestinationInvalid))
    ensures IsDir(fs, dst) && !IsDir(fs, src) ==> r == Effect(fs, Fail(ReadFailed))
    ensures r.outcome.Pass? <==> IsDir(fs, dst) && IsDir(fs, src) && CopyTargetsWritable(fs, src, dst, listing)
    ensures r.outcome.Pass? && src != dst ==>
      forall n | IsFile(fs, src + [n]) :: dst + [n] in r.fs && r.fs[dst + [n]] == fs[src + [n]]
    ensures r.outcome.Pass? && src == dst ==>
      forall n | IsFile(fs, src + [n]) :: src + [n] in r.fs && r.fs[src + [n]] == File([])
    ensures forall q | !IsCopyTarget(fs, src, dst, listing, q) :: (q in r.fs <==> q in fs)
    ensures forall q | q in fs && !IsCopyTarget(fs, src, dst, listing, q) :: r.fs[q] == fs[q]
  {
    if !IsDir(fs, dst) then Effect(fs, Fail(DestinationInvalid))
    else if !IsDir(fs, src) then Effect(fs, Fail(ReadFailed))
    else if src == dst then
      assert forall n | IsFile(fs, src + [n]) :: IsCopyTarget(fs, src, src, listing, src + [n]) by {
        forall n | IsFile(fs, src + [n])
          ensures IsCopyTarget(fs, src, src, listing, src + [n])
        {
          assert (src + [n])[..|src|] == src && (src + [n])[|src|] == n;
        }
      }
      Effect(TruncateFiles(fs, src, listing), Pass)
    else
      CopyEntriesCopies(fs, src, dst, listing);
      CopyEntriesFrame(fs, src, dst, listing);
      CopyEntries(fs, src, dst, listing)
  }

  /** Subdirectories of `src` are never copied: whatever is at `dst/<name>` for
      a directory `src/<name>` is left as it was. */
  lemma CopySkipsDirectories(fs: Fs, src: Path, dst: Path, listing: seq<string>, name: string)
    requires IsDir(fs, src) ==> Lists(fs, src, listing)
    requires IsDir(fs, src + [name])
    ensures var r := CopyDirFileContents(fs, src, dst, listing).fs;
            (dst + [name] in r <==> dst + [name] in fs) && (dst + [name] in fs ==> r[dst + [name]] == fs[dst + [name]])
  {
    var q := dst + [name];
    assert q[..|dst|] == dst && q[|dst|] == name;
    assert !IsCopyTarget(fs, src, dst, listing, q);
  }
}

=== FILE: process.dfy ===
/** The post-processing pipeline of `src/process.rs`: discover the scanned
    pages of a document directory, then run, each only if everything before it
    succeeded, one `magick` contrast run per page, `tiffcp` to combine the
    pages, `magick` to convert to PDF and `ocrmypdf` in a Docker container.

    Each external run is an input `ToolRun`: whether the tool exited
    successfully and the bytes of the file it wrote, or, for a failed run,
    whatever partial output it left. `read_dir` order is
    the input `listing`. */
module Process {
  import opened Base
  import opened Text
  import opened FileSystem

  const OcrImage := "docker.io/jbarlow83/ocrmypdf:v16.10.0"
  const CombinedTif := "_combined.tif"
  const CombinedPdf := "_combined.pdf"
  const FinalPdf := "_final.pdf"

  /** How an external run ended: successfully, with the bytes of its output
      file, or unsuccessfully, possibly after writing part of its output. */
  datatype ToolRun = Succeeded(output: seq<byte>) | Failed(partial: Option<seq<byte>>)

  /** One argument of an external run: plain text, or a path handed over as
      the operating system's path value. */
  datatype Arg = Str(text: string) | PathArg(path: Path)

  /** One external program run: the program and its argument vector. */
  datatype Invocation = Invocation(program: string, args: seq<Arg>)

  datatype ProcessError =
    | NoScannedPages           // nothing to process; the directory was removed
    | ToolFailed(program: string)

  // ---------------------------------------------------------------------------
  // Discovery and naming

  /** A scanned page: a `.tif` file name without `_`, which every derived file has. */
  predicate IsPageName(name: string)
  {
    EndsWith(name, ".tif") && '_' !in name
  }

  /** `a` is `b` with some elements left out. */
  predicate IsSubsequence(a: seq<string>, b: seq<string>)
    decreases |b|
  {
    |a| == 0 || (|b| > 0 && if a[0] == b[0] then IsSubsequence(a[1..], b[1..]) else IsSubsequence(a, b[1..]))
  }

  predicate NoDuplicates(s: seq<string>)
  {
    forall i, j | 0 <= i < j < |s| :: s[i] != s[j]
  }

  /** The discovery filter: the page names of the listing, in listing order. */
  function DiscoverPages(listing: seq<string>): (pages: seq<string>)
    ensures forall n :: n in pages <==> n in listing && IsPageName(n)
    ensures IsSubsequence(pages, listing) && |pages| <= |listing|
    ensures NoDuplicates(listing) ==> NoDuplicates(pages)
    decreases |listing|
  {
    if |listing| == 0 then []
    else
      var rest := DiscoverPages(listing[1..]);
      assert forall n | n in listing[1..] :: n in listing;
      if IsPageName(listing[0]) then
        assert ([listing[0]] + rest)[1..] == rest;
        [listing[0]] + rest
      else rest
  }

  /** `tif.replace(".tif", "_processed.tif")`, every occurrence replaced. */
  function ProcessedName(page: string): string
  {
    ReplaceAll(page, ".tif", "_processed.tif")
  }

  /** A processed name is never a page name, so a later discovery skips it;
      it is not one of the fixed output names; and the page it came from can
      be read back from it. */
  lemma ProcessedNameFacts(page: string)
    requires IsPageName(page)
    ensures '_' in ProcessedName(page) && !IsPageName(ProcessedName(page))
    ensures ProcessedName(page) != CombinedTif && ProcessedName(page) != CombinedPdf
            && ProcessedName(page) != FinalPdf
    ensures ReplaceAll(ProcessedName(page), "_processed.tif", ".tif") == page
  {
    ReplaceAllIntroduces(page, ".tif", "_processed.tif", |page| - 4);
    ReplaceAllRoundTrip(page, ".tif", "_processed.tif");
  }

  /** Different pages get different processed files. */
  lemma ProcessedNameInjective(a: string, b: string)
    requires IsPageName(a) && IsPageName(b)
    requires ProcessedName(a) == ProcessedName(b)
    ensures a == b
  {
    ReplaceAllInjective(a, b, ".tif", "_processed.tif");
  }

  // ---------------------------------------------------------------------------
  // The planned runs

  function ContrastCall(dir: Path, page: string): Invocation
  {
    Invocation("magick", [PathArg(dir + [page]), Str("-auto-level"), Str("-level"), Str("10%,90%"),
                          PathArg(dir + [ProcessedName(page)])])
  }

  function CombineCall(dir: Path, pages: seq<string>): Invocation
  {
    Invocation("tiffcp", [Str("-c"), Str("lzw")]
                         + seq(|pages|, i requires 0 <= i < |pages| => PathArg(dir + [ProcessedName(pages[i])]))
                         + [PathArg(dir + [CombinedTif])])
  }

  function ConvertCall(dir: Path): Invocation
  {
    Invocation("magick", [PathArg(dir + [CombinedTif]), Str("-compress"), Str("JPEG"), PathArg(dir + [CombinedPdf])])
  }

  /** The OCR run mounts the document directory, rendered as text, at
      `/document` inside the container. */
  function OcrCall(dir: Path): Invocation
  {
    Invocation("docker", [Str("run"), Str("--rm"), Str("-v"), Str(Render(dir) + ":/document"), Str(OcrImage),
                          PathArg(["document", CombinedPdf]), PathArg(["document", FinalPdf])])
  }

  /** Every run of a successful processing, in order. */
  function PlannedCalls(dir: Path, pages: seq<string>): (calls: seq<Invocation>)
    ensures |calls| == |pages| + 3
  {
    seq(|pages|, i requires 0 <= i < |pages| => ContrastCall(dir, pages[i]))
    + [CombineCall(dir, pages), ConvertCall(dir), OcrCall(dir)]
  }

  /** The file each planned run writes. */
  function PlannedOutputs(dir: Path, pages: seq<string>): (outs: seq<Path>)
    ensures |outs| == |pages| + 3
  {
    seq(|pages|, i requires 0 <= i < |pages| => dir + [ProcessedName(pages[i])])
    + [dir + [CombinedTif], dir + [CombinedPdf], dir + [FinalPdf]]
  }

  /** `tiffcp` reads the processed pages the contrast runs write, in page
      order, and writes the combined file. */
  lemma CombineReadsContrastOutputs(dir: Path, pages: seq<string>)
    ensures var calls := PlannedCalls(dir, pages);
            var outs := PlannedOutputs(dir, pages);
            var n := |pages|;
      && calls[n].program == "tiffcp"
      && |calls[n].args| == n + 3
      && calls[n].args[..2] == [Str("-c"), Str("lzw")]
      && (forall j | 0 <= j < n ::
            && |calls[j].args| == 5 && calls[j].args[4] == PathArg(outs[j])
            && calls[n].args[2 + j] == PathArg(outs[j]))
      && calls[n].args[n + 2] == PathArg(outs[n])
  {
    var calls := PlannedCalls(dir, pages);
    var n := |pages|;
    forall j | 0 <= j < n
      ensures calls[n].args[2 + j] == PathArg(dir + [ProcessedName(pages[j])])
    {
      assert calls[n].args[2 + j] == ([Str("-c"), Str("lzw")]
        + seq(n, i requires 0 <= i < n => PathArg(dir + [ProcessedName(pages[i])])))[2 + j];
    }
  }

  /** The PDF conversion reads the combined file and writes the combined PDF. */
  lemma ConvertReadsCombined(dir: Path, pages: seq<string>)
    ensures var calls := PlannedCalls(dir, pages);
            var outs := PlannedOutputs(dir, pages);
            var n := |pages|;
      calls[n + 1] == Invocation("magick", [PathArg(outs[n]), Str("-compress"), Str("JPEG"), PathArg(outs[n + 1])])
  {
  }

  /** The OCR run mounts the document directory at `/document`, so the
      container reads the combined PDF and writes the final PDF under the same
      names as on the host. */
  lemma OcrReadsConverted(dir: Path, pages: seq<string>)
    ensures var calls := PlannedCalls(dir, pages);
            var outs := PlannedOutputs(dir, pages);
            var n := |pages|;
      && calls[n + 2].program == "docker"
      && |calls[n + 2].args| == 7
      && calls[n + 2].args[..3] == [Str("run"), Str("--rm"), Str("-v")]
      && calls[n + 2].args[3] == Str(Render(dir) + ":/document")
      && calls[n + 2].args[4] == Str(OcrImage)
      && outs[n + 1][..|dir|] == dir && outs[n + 2][..|dir|] == dir
      && calls[n + 2].args[5] == PathArg(["document"] + outs[n + 1][|dir|..])
      && calls[n + 2].args[6] == PathArg(["document"] + outs[n + 2][|dir|..])
  {
    var outs := PlannedOutputs(dir, pages);
    var n := |pages|;
    assert outs[n + 1][|dir|..] == [CombinedPdf] && outs[n + 2][|dir|..] == [FinalPdf];
  }

  // ---------------------------------------------------------------------------
  // Running tools

  /** A run succeeds when the tool reports success; a tool cannot put its
      output file where a directory is, so that run fails. */
  predicate ToolSucceeds(fs: Fs, out: Path, run: ToolRun)
  {
    run.Succeeded? && CanWriteFile(fs, out)
  }

  /** The filesystem after a successful run: the output file is there. */
  function AfterTool(fs: Fs, out: Path, run: ToolRun): (fs': Fs)
    requires ToolSucceeds(fs, out, run)
    ensures fs'.Keys == fs.Keys + {out} && IsFile(fs', out)
    ensures forall q | q in fs && q != out :: fs'[q] == fs[q]
    ensures forall q :: IsDir(fs', q) <==> IsDir(fs, q)
    ensures forall q | IsFile(fs, q) :: IsFile(fs', q)
  {
    fs[out := File(run.output)]
  }

  /** The filesystem after a failed run: nothing is cleaned up, so a partial
      output file stays where the tool could write it. */
  function AfterFailure(fs: Fs, out: Path, run: ToolRun): (fs': Fs)
    ensures fs.Keys <= fs'.Keys <= fs.Keys + {out}
    ensures forall q | q in fs && q != out :: fs'[q] == fs[q]
    ensures forall q :: IsDir(fs', q) <==> IsDir(fs, q)
    ensures forall q | IsFile(fs, q) :: IsFile(fs', q)
    ensures run.Failed? && run.partial.Some? && CanWriteFile(fs, out) ==> out in fs' && fs'[out] == File(run.partial.value)
  {
    if run.Failed? && run.partial.Some? && CanWriteFile(fs, out) then fs[out := File(run.partial.value)] else fs
  }

  /** Whether a tool run may succeed is decided by the run and by the
      directories, which no tool run changes. */
  lemma DirsDecideToolSuccess(fs: Fs, fs': Fs)
    requires forall q :: IsDir(fs', q) <==> IsDir(fs, q)
    ensures forall out, run :: ToolSucceeds(fs', out, run) == ToolSucceeds(fs, out, run)
  {
    forall out, run
      ensures ToolSucceeds(fs', out, run) == ToolSucceeds(fs, out, run)
    {
      if |out| > 0 {
        assert IsDir(fs', Parent(out)) == IsDir(fs, Parent(out));
      }
      assert IsDir(fs', out) == IsDir(fs, out);
    }
  }

  /** The state of a stage: filesystem, runs made, progress ticks, outcome. */
  datatype Steps = Steps(fs: Fs, calls: seq<Invocation>, ticks: nat, outcome: Outcome<ProcessError>)

  /** The files the contrast loop over `pages` writes, in page order. */
  function ProcessedPaths(dir: Path, pages: seq<string>): (outs: seq<Path>)
    ensures |outs| == |pages|
    ensures forall j | 0 <= j < |pages| :: outs[j] == dir + [ProcessedName(pages[j])]
  {
    seq(|pages|, i requires 0 <= i < |pages| => dir + [ProcessedName(pages[i])])
  }

  /** The contrast run for `page` succeeds. */
  predicate ContrastOk(fs: Fs, dir: Path, page: string, run: ToolRun)
  {
    ToolSucceeds(fs, dir + [ProcessedName(page)], run)
  }

  /** The contrast loop over `pages`: tick, then run `magick` on the page;
      the first failing run ends the loop. */
  function ContrastPages(fs: Fs, dir: Path, pages: seq<string>, runs: seq<ToolRun>): (r: Steps)
    requires |runs| == |pages|
    ensures |r.calls| <= |pages| && r.ticks == |r.calls|
    ensures forall q :: IsDir(r.fs, q) <==> IsDir(fs, q)
    decreases |pages|
  {
    if |pages| == 0 then Steps(fs, [], 0, Pass)
    else
      var out := dir + [ProcessedName(pages[0])];
      var call := ContrastCall(dir, pages[0]);
      if !ToolSucceeds(fs, out, runs[0]) then Steps(AfterFailure(fs, out, runs[0]), [call], 1, Fail(ToolFailed("magick")))
      else
        var fs1 := AfterTool(fs, out, runs[0]);
        var rest := ContrastPages(fs1, dir, pages[1..], runs[1..]);
        Steps(rest.fs, [call] + rest.calls, 1 + rest.ticks, rest.outcome)
  }

  /** The contrast loop succeeds exactly when every page's run succeeds, and
      then it has run `magick` on every page. */
  lemma {:induction false} ContrastPagesPass(fs: Fs, dir: Path, pages: seq<string>, runs: seq<ToolRun>)
    requires |runs| == |pages|
    ensures var r := ContrastPages(fs, dir, pages, runs);
      && (r.outcome.Pass? <==> forall j | 0 <= j < |pages| :: ContrastOk(fs, dir, pages[j], runs[j]))
      && (r.outcome.Pass? ==> |r.calls| == |pages|)
    decreases |pages|
  {
    if |pages| > 0 {
      var out := dir + [ProcessedName(pages[0])];
      if ToolSucceeds(fs, out, runs[0]) {
        var fs1 := AfterTool(fs, out, runs[0]);
        DirsDecideToolSuccess(fs, fs1);
        ContrastPagesPass(fs1, dir, pages[1..], runs[1..]);
        forall j | 1 <= j < |pages|
          ensures ContrastOk(fs1, dir, pages[1..][j - 1], runs[1..][j - 1]) == ContrastOk(fs, dir, pages[j], runs[j])
        {
          assert pages[1..][j - 1] == pages[j] && runs[1..][j - 1] == runs[j];
        }
      }
    }
  }

  /** A failed contrast loop stopped at the first page whose run failed, and
      reports `magick` as the failing program. */
  lemma {:induction false} ContrastPagesFail(fs: Fs, dir: Path, pages: seq<string>, runs: seq<ToolRun>)
    requires |runs| == |pages|
    ensures var r := ContrastPages(fs, dir, pages, runs);
      r.outcome.Fail? ==>
        && |r.calls| >= 1
        && r.outcome.error == ToolFailed("magick")
        && !ContrastOk(fs, dir, pages[|r.calls| - 1], runs[|r.calls| - 1])
        && forall j | 0 <= j < |r.calls| - 1 :: ContrastOk(fs, dir, pages[j], runs[j])
    decreases |pages|
  {
    if |pages| > 0 {
      var out := dir + [ProcessedName(pages[0])];
      if ToolSucceeds(fs, out, runs[0]) {
        var fs1 := AfterTool(fs, out, runs[0]);
        DirsDecideToolSuccess(fs, fs1);
        ContrastPagesFail(fs1, dir, pages[1..], runs[1..]);
        var rest := ContrastPages(fs1, dir, pages[1..], runs[1..]);
        var r := ContrastPages(fs, dir, pages, runs);
        assert |r.calls| == 1 + |rest.calls| && r.outcome == rest.outcome;
        if r.outcome.Fail? {
          var last := |r.calls| - 1;
          assert pages[1..][last - 1] == pages[last] && runs[1..][last - 1] == runs[last];
          forall j | 1 <= j < last
            ensures ContrastOk(fs, dir, pages[j], runs[j])
          {
            assert pages[1..][j - 1] == pages[j] && runs[1..][j - 1] == runs[j];
            assert ContrastOk(fs1, dir, pages[1..][j - 1], runs[1..][j - 1]);
          }
        }
      }
    }
  }

  /** The contrast loop runs `magick` on the pages in order. */
  lemma {:induction false} ContrastPagesCalls(fs: Fs, dir: Path, pages: seq<string>, runs: seq<ToolRun>)
    requires |runs| == |pages|
    ensures var r := ContrastPages(fs, dir, pages, runs);
            forall j | 0 <= j < |r.calls| :: r.calls[j] == ContrastCall(dir, pages[j])
    decreases |pages|
  {
    if |pages| > 0 {
      var out := dir + [ProcessedName(pages[0])];
      if ToolSucceeds(fs, out, runs[0]) {
        var fs1 := AfterTool(fs, out, runs[0]);
        ContrastPagesCalls(fs1, dir, pages[1..], runs[1..]);
        var rest := ContrastPages(fs1, dir, pages[1..], runs[1..]);
        var r := ContrastPages(fs, dir, pages, runs);
        assert r.calls == [ContrastCall(dir, pages[0])] + rest.calls;
        forall j | 1 <= j < |r.calls|
          ensures r.calls[j] == ContrastCall(dir, pages[j])
        {
          assert r.calls[j] == rest.calls[j - 1];
          assert pages[1..][j - 1] == pages[j];
        }
      }
    }
  }

  /** The contrast loop removes nothing, and regular files stay regular files. */
  lemma {:induction false} ContrastPagesGrows(fs: Fs, dir: Path, pages: seq<string>, runs: seq<ToolRun>)
    requires |runs| == |pages|
    ensures var r := ContrastPages(fs, dir, pages, runs);
      && fs.Keys <= r.fs.Keys
      && (forall q | IsFile(fs, q) :: IsFile(r.fs, q))
    decreases |pages|
  {
    if |pages| > 0 {
      var out := dir + [ProcessedName(pages[0])];
      if ToolSucceeds(fs, out, runs[0]) {
        ContrastPagesGrows(AfterTool(fs, out, runs[0]), dir, pages[1..], runs[1..]);
      }
    }
  }

  /** The one step of the contrast loop that every frame proof needs: the
      processed files written by the whole loop are the first one and those of
      the rest of the loop. */
  lemma ContrastPagesOutputsSplit(dir: Path, pages: seq<string>, k: nat)
    requires 1 <= k <= |pages|
    ensures ProcessedPaths(dir, pages)[..k]
            == [dir + [ProcessedName(pages[0])]] + ProcessedPaths(dir, pages[1..])[..k - 1]
  {
    var outs := ProcessedPaths(dir, pages)[..k];
    var later := ProcessedPaths(dir, pages[1..])[..k - 1];
    forall j | 1 <= j < k
      ensures outs[j] == later[j - 1]
    {
      assert pages[1..][j - 1] == pages[j];
    }
  }

  /** Every path the contrast loop creates is the processed file of a page it
      has run `magick` on. */
  lemma {:induction false} ContrastPagesAdds(fs: Fs, dir: Path, pages: seq<string>, runs: seq<ToolRun>)
    requires |runs| == |pages|
    ensures var r := ContrastPages(fs, dir, pages, runs);
      forall q | q in r.fs && q !in fs :: q in ProcessedPaths(dir, pages)[..|r.calls|]
    decreases |pages|
  {
    if |pages| > 0 {
      var out := dir + [ProcessedName(pages[0])];
      var r := ContrastPages(fs, dir, pages, runs);
      assert ProcessedPaths(dir, pages)[0] == out;
      if ToolSucceeds(fs, out, runs[0]) {
        var fs1 := AfterTool(fs, out, runs[0]);
        ContrastPagesAdds(fs1, dir, pages[1..], runs[1..]);
        var rest := ContrastPages(fs1, dir, pages[1..], runs[1..]);
        assert r.fs == rest.fs && |r.calls| == 1 + |rest.calls|;
        ContrastPagesOutputsSplit(dir, pages, |r.calls|);
        forall q | q in r.fs && q !in fs
          ensures q in ProcessedPaths(dir, pages)[..|r.calls|]
        {
          if q != out {
            assert q in rest.fs && q !in fs1;
            assert q in ProcessedPaths(dir, pages[1..])[..|rest.calls|];
          }
        }
      } else {
        assert |r.calls| == 1 && ProcessedPaths(dir, pages)[..1] == [out];
      }
    }
  }


  /** Every path that is not the processed file of a page the loop has run
      `magick` on keeps its contents. */
  lemma {:induction false} ContrastPagesKeeps(fs: Fs, dir: Path, pages: seq<string>, runs: seq<ToolRun>)
    requires |runs| == |pages|
    ensures var r := ContrastPages(fs, dir, pages, runs);
      forall q | q in fs && q !in ProcessedPaths(dir, pages)[..|r.calls|] :: q in r.fs && r.fs[q] == fs[q]
    decreases |pages|
  {
    if |pages| > 0 {
      var out := dir + [ProcessedName(pages[0])];
      var r := ContrastPages(fs, dir, pages, runs);
      assert ProcessedPaths(dir, pages)[0] == out;
      if ToolSucceeds(fs, out, runs[0]) {
        var fs1 := AfterTool(fs, out, runs[0]);
        ContrastPagesKeeps(fs1, dir, pages[1..], runs[1..]);
        var rest := ContrastPages(fs1, dir, pages[1..], runs[1..]);
        assert r.fs == rest.fs && |r.calls| == 1 + |rest.calls|;
        ContrastPagesOutputsSplit(dir, pages, |r.calls|);
      } else {
        assert |r.calls| == 1 && ProcessedPaths(dir, pages)[..1] == [out];
      }
    }
  }


  /** Every contrast run that succeeded left its processed file behind. */
  lemma {:induction false} ContrastPagesWritten(fs: Fs, dir: Path, pages: seq<string>, runs: seq<ToolRun>)
    requires |runs| == |pages|
    ensures var r := ContrastPages(fs, dir, pages, runs);
      forall j | 0 <= j < |r.calls| && ContrastOk(fs, dir, pages[j], runs[j]) ::
        IsFile(r.fs, dir + [ProcessedName(pages[j])])
    decreases |pages|
  {
    if |pages| > 0 {
      var out := dir + [ProcessedName(pages[0])];
      if ToolSucceeds(fs, out, runs[0]) {
        var fs1 := AfterTool(fs, out, runs[0]);
        DirsDecideToolSuccess(fs, fs1);
        ContrastPagesWritten(fs1, dir, pages[1..], runs[1..]);
        ContrastPagesGrows(fs1, dir, pages[1..], runs[1..]);
        var rest := ContrastPages(fs1, dir, pages[1..], runs[1..]);
        var r := ContrastPages(fs, dir, pages, runs);
        assert r.fs == rest.fs && |r.calls| == 1 + |rest.calls|;
        forall j | 0 <= j < |r.calls| && ContrastOk(fs, dir, pages[j], runs[j])
          ensures IsFile(r.fs, dir + [ProcessedName(pages[j])])
        {
          if j == 0 {
            assert IsFile(fs1, out);
          } else {
            assert pages[1..][j - 1] == pages[j] && runs[1..][j - 1] == runs[j];
            assert ContrastOk(fs1, dir, pages[1..][j - 1], runs[1..][j - 1]);
          }
        }
      }
    }
  }

  // ---------------------------------------------------------------------------
  // The whole pipeline

  /** Where a processing stands: filesystem, runs made, progress position and
      progress total, outcome so far. */
  datatype Processing = Processing(fs: Fs, calls: seq<Invocation>, progress: nat, total: nat,
                                   outcome: Outcome<ProcessError>)

  /** One stage after the contrast loop: skipped once something has failed;
      otherwise the tool runs, only a successful run advances the bar, and a
      failed run leaves whatever partial output it wrote. */
  function Stage(s: Processing, call: Invocation, out: Path, run: ToolRun): (r: Processing)
    ensures s.outcome.Fail? ==> r == s
    ensures s.outcome.Pass? ==> r.calls == s.calls + [call]
    ensures r.total == s.total
    ensures s.outcome.Pass? ==> (r.outcome.Pass? <==> ToolSucceeds(s.fs, out, run))
    ensures s.outcome.Pass? && r.outcome.Pass? ==>
      r.progress == s.progress + 1 && r.fs == AfterTool(s.fs, out, run)
    ensures s.outcome.Pass? && r.outcome.Fail? ==>
      r.progress == s.progress && r.fs == AfterFailure(s.fs, out, run) && r.outcome.error == ToolFailed(call.program)
    ensures forall q :: IsDir(r.fs, q) <==> IsDir(s.fs, q)
  {
    if s.outcome.Fail? then s
    else if ToolSucceeds(s.fs, out, run) then
      Processing(AfterTool(s.fs, out, run), s.calls + [call], s.progress + 1, s.total, Pass)
    else
      Processing(AfterFailure(s.fs, out, run), s.calls + [call], s.progress, s.total, Fail(ToolFailed(call.program)))
  }

  /** The state after the contrast loop: one tick per page attempted, plus the
      tick that closes the loop when every page succeeded. */
  function AfterContrast(fs: Fs, dir: Path, pages: seq<string>, runs: seq<ToolRun>): (r: Processing)
    requires |runs| >= |pages|
  {
    var c := ContrastPages(fs, dir, pages, runs[..|pages|]);
    Processing(c.fs, c.calls, if c.outcome.Pass? then c.ticks + 1 else c.ticks, |pages| + 4, c.outcome)
  }

  /** The runs after the contrast loop, from planned run `k` on: `tiffcp`,
      then the PDF conversion, then OCR, each skipped once a run has failed. */
  function LaterStages(dir: Path, pages: seq<string>, runs: seq<ToolRun>, s: Processing, k: nat): (r: Processing)
    requires |pages| <= k <= |pages| + 3 <= |runs|
    decreases |pages| + 3 - k
  {
    if k == |pages| + 3 then s
    else
      var next := Stage(s, PlannedCalls(dir, pages)[k], PlannedOutputs(dir, pages)[k], runs[k]);
      LaterStages(dir, pages, runs, next, k + 1)
  }

  /** The pipeline over the discovered `pages`: the contrast loop, then the
      later stages. */
  function Pipeline(fs: Fs, dir: Path, pages: seq<string>, runs: seq<ToolRun>): (r: Processing)
    requires |runs| >= |pages| + 3
  {
    LaterStages(dir, pages, runs, AfterContrast(fs, dir, pages, runs), |pages|)
  }

  /** `process_document` on directory `dir`, which `read_dir` lists as `listing`:
      a directory without pages is removed, any other is run through the
      pipeline. */
  function ProcessDocument(fs: Fs, dir: Path, listing: seq<string>, runs: seq<ToolRun>): (r: Processing)
    requires IsDir(fs, dir) && Lists(fs, dir, listing)
    requires |runs| >= |listing| + 3
    ensures var pages := DiscoverPages(listing);
      && (|pages| > 0 ==> r == Pipeline(fs, dir, pages, runs))
      && (|pages| == 0 ==> r.outcome == Fail(NoScannedPages) && r.calls == [])
  {
    var pages := DiscoverPages(listing);
    if |pages| == 0 then Processing(RemoveAll(fs, dir), [], 0, 0, Fail(NoScannedPages))
    else Pipeline(fs, dir, pages, runs)
  }

  /** A directory holding pages is processed along the planned runs, in order:
      the calls made are a prefix of the plan, and processing passes exactly
      when every planned run succeeds. */
  lemma ProcessDocumentFollowsPlan(fs: Fs, dir: Path, listing: seq<string>, runs: seq<ToolRun>)
    requires IsDir(fs, dir) && Lists(fs, dir, listing)
    requires |runs| >= |listing| + 3
    requires |DiscoverPages(listing)| > 0
    ensures var pages := DiscoverPages(listing);
            var r := ProcessDocument(fs, dir, listing, runs);
      && |runs| >= |pages| + 3
      && r.total == |pages| + 4
      && 1 <= |r.calls| <= |pages| + 3
      && r.calls == PlannedCalls(dir, pages)[..|r.calls|]
      && (r.outcome.Pass? <==> forall i | 0 <= i < |pages| + 3 :: StageOk(fs, dir, pages, runs, i))
  {
    var pages := DiscoverPages(listing);
    PipelineTrace(fs, dir, pages, runs);
    PipelineStopsAtFirstFailure(fs, dir, pages, runs);
  }

  /** The `i`-th planned run (counting from 0) succeeds, judged on the
      filesystem the processing started from. */
  predicate StageOk(fs: Fs, dir: Path, pages: seq<string>, runs: seq<ToolRun>, i: nat)
    requires i < |pages| + 3 && i < |runs|
  {
    ToolSucceeds(fs, PlannedOutputs(dir, pages)[i], runs[i])
  }

  /** Processing fails for want of pages exactly when the listing holds no
      page name; then the directory is removed with everything in it, nothing
      else changes, and no tool is run. */
  lemma ProcessDocumentNoPages(fs: Fs, dir: Path, listing: seq<string>, runs: seq<ToolRun>)
    requires IsDir(fs, dir) && Lists(fs, dir, listing)
    requires |runs| >= |listing| + 3
    ensures var r := ProcessDocument(fs, dir, listing, runs);
      && (r.outcome == Fail(NoScannedPages) <==> forall n | n in listing :: !IsPageName(n))
      && (r.outcome == Fail(NoScannedPages) ==>
            && r.calls == [] && r.progress == 0
            && (forall q | q in r.fs :: !Within(dir, q))
            && SameOutside(fs, r.fs, dir))
  {
    var pages := DiscoverPages(listing);
    if |pages| > 0 {
      assert pages[0] in listing && IsPageName(pages[0]);
      PipelineStopsAtFirstFailure(fs, dir, pages, runs);
    }
  }

  /** A state is on the plan: its runs are the first runs of the plan, and
      its progress position counts them, plus the loop's closing tick while
      nothing has failed. */
  predicate OnPlan(dir: Path, pages: seq<string>, s: Processing)
  {
    && |s.calls| <= |pages| + 3
    && s.calls == PlannedCalls(dir, pages)[..|s.calls|]
    && s.progress == |s.calls| + (if s.outcome.Pass? then 1 else 0)
    && s.total == |pages| + 4
  }

  /** A stage that runs the next call of the plan keeps the state on the plan. */
  lemma StageFollowsPlan(dir: Path, pages: seq<string>, s: Processing, k: nat, out: Path, run: ToolRun)
    requires OnPlan(dir, pages, s) && k < |pages| + 3
    requires s.outcome.Pass? ==> |s.calls| == k
    ensures var r := Stage(s, PlannedCalls(dir, pages)[k], out, run);
      && OnPlan(dir, pages, r)
      && (r.outcome.Pass? ==> |r.calls| == k + 1)
  {
    var plan := PlannedCalls(dir, pages);
    if s.outcome.Pass? {
      assert plan[..k + 1] == plan[..k] + [plan[k]];
    }
  }

  /** The contrast loop leaves the state on the plan, having run every page
      when it succeeded. */
  lemma AfterContrastOnPlan(fs: Fs, dir: Path, pages: seq<string>, runs: seq<ToolRun>)
    requires |runs| >= |pages|
    ensures var s := AfterContrast(fs, dir, pages, runs);
      OnPlan(dir, pages, s) && (s.outcome.Pass? ==> |s.calls| == |pages|)
  {
    var plan := PlannedCalls(dir, pages);
    var c := ContrastPages(fs, dir, pages, runs[..|pages|]);
    ContrastPagesCalls(fs, dir, pages, runs[..|pages|]);
    ContrastPagesPass(fs, dir, pages, runs[..|pages|]);
    assert c.calls == plan[..|c.calls|];
  }

  /** The later stages keep a state on the plan; once they have all run, a
      state that has not failed has made every planned run. */
  lemma {:induction false} LaterStagesOnPlan(dir: Path, pages: seq<string>, runs: seq<ToolRun>, s: Processing, k: nat)
    requires |pages| <= k <= |pages| + 3 <= |runs|
    requires OnPlan(dir, pages, s) && (s.outcome.Pass? ==> |s.calls| == k)
    ensures var r := LaterStages(dir, pages, runs, s, k);
      OnPlan(dir, pages, r) && (r.outcome.Pass? ==> |r.calls| == |pages| + 3)
    decreases |pages| + 3 - k
  {
    if k < |pages| + 3 {
      StageFollowsPlan(dir, pages, s, k, PlannedOutputs(dir, pages)[k], runs[k]);
      var next := Stage(s, PlannedCalls(dir, pages)[k], PlannedOutputs(dir, pages)[k], runs[k]);
      LaterStagesOnPlan(dir, pages, runs, next, k + 1);
    }
  }

  /** The later stages never undo a run, and when one is still due for a
      state that has not failed, they make it. */
  lemma {:induction false} LaterStagesKeepCalls(dir: Path, pages: seq<string>, runs: seq<ToolRun>, s: Processing, k: nat)
    requires |pages| <= k <= |pages| + 3 <= |runs|
    ensures |LaterStages(dir, pages, runs, s, k).calls| >= |s.calls|
    ensures k < |pages| + 3 && s.outcome.Pass? ==> |LaterStages(dir, pages, runs, s, k).calls| > |s.calls|
    decreases |pages| + 3 - k
  {
    if k < |pages| + 3 {
      var next := Stage(s, PlannedCalls(dir, pages)[k], PlannedOutputs(dir, pages)[k], runs[k]);
      LaterStagesKeepCalls(dir, pages, runs, next, k + 1);
    }
  }

  /** The runs of the pipeline are always a prefix of the plan, in plan
      order. The progress bar's total is the page count plus four, and its
      position is one tick per run made, plus the tick that closes the contrast
      loop once the whole pipeline succeeded, so it never passes the total and
      reaches it exactly on success. */
  lemma PipelineTrace(fs: Fs, dir: Path, pages: seq<string>, runs: seq<ToolRun>)
    requires |runs| >= |pages| + 3
    ensures var r := Pipeline(fs, dir, pages, runs);
      && r.total == |pages| + 4
      && 1 <= |r.calls| <= |pages| + 3
      && r.calls == PlannedCalls(dir, pages)[..|r.calls|]
      && r.progress == |r.calls| + (if r.outcome.Pass? then 1 else 0)
      && r.progress <= r.total
      && (r.outcome.Pass? ==> r.calls == PlannedCalls(dir, pages) && r.progress == r.total)
  {
    var s0 := AfterContrast(fs, dir, pages, runs);
    AfterContrastOnPlan(fs, dir, pages, runs);
    LaterStagesOnPlan(dir, pages, runs, s0, |pages|);
    var r := Pipeline(fs, dir, pages, runs);
    LaterStagesKeepCalls(dir, pages, runs, s0, |pages|);
    if r.outcome.Pass? {
      assert PlannedCalls(dir, pages)[..|pages| + 3] == PlannedCalls(dir, pages);
    }
  }

  /** A state has attempted the first `k` planned runs: it passed exactly when
      all of them succeeded, with the directories as they were; otherwise its
      last run is the first one that failed, and its error names that run's
      program. */
  ghost predicate Reached(fs: Fs, dir: Path, pages: seq<string>, runs: seq<ToolRun>, s: Processing, k: nat)
    requires k <= |pages| + 3 && k <= |runs|
  {
    && (s.outcome.Pass? <==> forall i | 0 <= i < k :: StageOk(fs, dir, pages, runs, i))
    && (s.outcome.Pass? ==> |s.calls| == k && forall q :: IsDir(s.fs, q) <==> IsDir(fs, q))
    && (s.outcome.Fail? ==>
          && 1 <= |s.calls| <= k
          && (forall i | 0 <= i < |s.calls| - 1 :: StageOk(fs, dir, pages, runs, i))
          && !StageOk(fs, dir, pages, runs, |s.calls| - 1)
          && s.outcome.error == ToolFailed(s.calls[|s.calls| - 1].program))
  }

  /** Running planned stage `k` after the first `k` advances to `k + 1`. */
  lemma StageReaches(fs: Fs, dir: Path, pages: seq<string>, runs: seq<ToolRun>, s: Processing, k: nat)
    requires |pages| <= k < |pages| + 3 && k < |runs|
    requires Reached(fs, dir, pages, runs, s, k)
    ensures Reached(fs, dir, pages, runs,
                    Stage(s, PlannedCalls(dir, pages)[k], PlannedOutputs(dir, pages)[k], runs[k]), k + 1)
  {
    var r := Stage(s, PlannedCalls(dir, pages)[k], PlannedOutputs(dir, pages)[k], runs[k]);
    if s.outcome.Pass? {
      DirsDecideToolSuccess(fs, s.fs);
      assert ToolSucceeds(s.fs, PlannedOutputs(dir, pages)[k], runs[k]) == StageOk(fs, dir, pages, runs, k);
      assert r.outcome.Pass? <==> forall i | 0 <= i < k + 1 :: StageOk(fs, dir, pages, runs, i);
    } else {
      assert !StageOk(fs, dir, pages, runs, |s.calls| - 1);
    }
  }

  /** The contrast loop has attempted the first `|pages|` planned runs. */
  lemma AfterContrastReached(fs: Fs, dir: Path, pages: seq<string>, runs: seq<ToolRun>)
    requires |runs| >= |pages| + 3
    ensures Reached(fs, dir, pages, runs, AfterContrast(fs, dir, pages, runs), |pages|)
  {
    var n := |pages|;
    var outs := PlannedOutputs(dir, pages);
    var c := ContrastPages(fs, dir, pages, runs[..n]);
    ContrastPagesCalls(fs, dir, pages, runs[..n]);
    ContrastPagesPass(fs, dir, pages, runs[..n]);
    ContrastPagesFail(fs, dir, pages, runs[..n]);
    assert forall j | 0 <= j < n :: runs[..n][j] == runs[j] && outs[j] == dir + [ProcessedName(pages[j])];
    assert forall j | 0 <= j < n :: StageOk(fs, dir, pages, runs, j) == ContrastOk(fs, dir, pages[j], runs[j]);
    if c.outcome.Fail? {
      assert c.calls[|c.calls| - 1] == ContrastCall(dir, pages[|c.calls| - 1]);
    }
  }

  /** The later stages advance a state from the first `k` planned runs to
      all of them. */
  lemma {:induction false} LaterStagesReach(fs: Fs, dir: Path, pages: seq<string>, runs: seq<ToolRun>, s: Processing, k: nat)
    requires |pages| <= k <= |pages| + 3 <= |runs|
    requires Reached(fs, dir, pages, runs, s, k)
    ensures Reached(fs, dir, pages, runs, LaterStages(dir, pages, runs, s, k), |pages| + 3)
    decreases |pages| + 3 - k
  {
    if k < |pages| + 3 {
      StageReaches(fs, dir, pages, runs, s, k);
      var next := Stage(s, PlannedCalls(dir, pages)[k], PlannedOutputs(dir, pages)[k], runs[k]);
      LaterStagesReach(fs, dir, pages, runs, next, k + 1);
    }
  }

  /** The pipeline succeeds exactly when every planned run succeeds;
      otherwise it stops at the first run that fails, and its error names that
      run's program (see `Reached`). */
  lemma PipelineStopsAtFirstFailure(fs: Fs, dir: Path, pages: seq<string>, runs: seq<ToolRun>)
    requires |runs| >= |pages| + 3
    ensures Reached(fs, dir, pages, runs, Pipeline(fs, dir, pages, runs), |pages| + 3)
  {
    AfterContrastReached(fs, dir, pages, runs);
    LaterStagesReach(fs, dir, pages, runs, AfterContrast(fs, dir, pages, runs), |pages|);
  }

  /** Nothing was removed, and every new path and every changed path is one of
      the first `done` outputs. */
  ghost predicate ChangedOnly(fs: Fs, fs': Fs, outs: seq<Path>, done: nat)
    requires done <= |outs|
  {
    && fs.Keys <= fs'.Keys
    && (forall q | q in fs' && q !in fs :: q in outs[..done])
    && (forall q | q in fs && q !in outs[..done] :: fs'[q] == fs[q])
  }

  /** What a state has done to the files: it changed only the outputs of the
      runs it made, and every run that succeeded left its output as a regular
      file. */
  ghost predicate Wrote(fs: Fs, dir: Path, pages: seq<string>, runs: seq<ToolRun>, s: Processing)
    requires |runs| >= |pages| + 3
  {
    var outs := PlannedOutputs(dir, pages);
    && |s.calls| <= |pages| + 3
    && ChangedOnly(fs, s.fs, outs, |s.calls|)
    && (forall i | 0 <= i < |s.calls| && StageOk(fs, dir, pages, runs, i) :: IsFile(s.fs, outs[i]))
  }

  /** Writing at most output `k` after the first `k` keeps the change within
      the first `k + 1` outputs. */
  lemma ChangedOnlyStep(fs: Fs, fs': Fs, fs'': Fs, outs: seq<Path>, k: nat)
    requires k < |outs| && ChangedOnly(fs, fs', outs, k)
    requires fs'.Keys <= fs''.Keys <= fs'.Keys + {outs[k]}
    requires forall q | q in fs' && q != outs[k] :: fs''[q] == fs'[q]
    ensures ChangedOnly(fs, fs'', outs, k + 1)
  {
    assert outs[..k + 1] == outs[..k] + [outs[k]];
  }

  /** The contrast loop writes only processed files. */
  lemma AfterContrastWrote(fs: Fs, dir: Path, pages: seq<string>, runs: seq<ToolRun>)
    requires |runs| >= |pages| + 3
    ensures Wrote(fs, dir, pages, runs, AfterContrast(fs, dir, pages, runs))
  {
    var n := |pages|;
    var s0 := AfterContrast(fs, dir, pages, runs);
    var outs := PlannedOutputs(dir, pages);
    ContrastPagesGrows(fs, dir, pages, runs[..n]);
    ContrastPagesAdds(fs, dir, pages, runs[..n]);
    ContrastPagesKeeps(fs, dir, pages, runs[..n]);
    ContrastPagesWritten(fs, dir, pages, runs[..n]);
    assert outs[..|s0.calls|] == ProcessedPaths(dir, pages)[..|s0.calls|];
    forall i | 0 <= i < |s0.calls| && StageOk(fs, dir, pages, runs, i)
      ensures IsFile(s0.fs, outs[i])
    {
      assert runs[..n][i] == runs[i] && outs[i] == dir + [ProcessedName(pages[i])];
    }
  }

  /** A later stage writes only its own output. */
  lemma StageWrote(fs: Fs, dir: Path, pages: seq<string>, runs: seq<ToolRun>, s: Processing, k: nat)
    requires |pages| <= k < |pages| + 3 <= |runs|
    requires Reached(fs, dir, pages, runs, s, k) && Wrote(fs, dir, pages, runs, s)
    ensures Wrote(fs, dir, pages, runs,
                  Stage(s, PlannedCalls(dir, pages)[k], PlannedOutputs(dir, pages)[k], runs[k]))
  {
    var outs := PlannedOutputs(dir, pages);
    var r := Stage(s, PlannedCalls(dir, pages)[k], outs[k], runs[k]);
    if s.outcome.Pass? {
      DirsDecideToolSuccess(fs, s.fs);
      if r.outcome.Pass? {
        ChangedOnlyStep(fs, s.fs, r.fs, outs, k);
        forall i | 0 <= i < k + 1 && StageOk(fs, dir, pages, runs, i)
          ensures IsFile(r.fs, outs[i])
        {
          if i < k {
            assert IsFile(s.fs, outs[i]);
          }
        }
      } else {
        assert !StageOk(fs, dir, pages, runs, k);
        ChangedOnlyStep(fs, s.fs, r.fs, outs, k);
        forall i | 0 <= i < k + 1 && StageOk(fs, dir, pages, runs, i)
          ensures IsFile(r.fs, outs[i])
        {
          assert i < k;
        }
      }
    }
  }

  /** The later stages write only their own outputs. */
  lemma {:induction false} LaterStagesWrote(fs: Fs, dir: Path, pages: seq<string>, runs: seq<ToolRun>, s: Processing, k: nat)
    requires |pages| <= k <= |pages| + 3 <= |runs|
    requires Reached(fs, dir, pages, runs, s, k) && Wrote(fs, dir, pages, runs, s)
    ensures Wrote(fs, dir, pages, runs, LaterStages(dir, pages, runs, s, k))
    decreases |pages| + 3 - k
  {
    if k < |pages| + 3 {
      StageWrote(fs, dir, pages, runs, s, k);
      StageReaches(fs, dir, pages, runs, s, k);
      var next := Stage(s, PlannedCalls(dir, pages)[k], PlannedOutputs(dir, pages)[k], runs[k]);
      LaterStagesWrote(fs, dir, pages, runs, next, k + 1);
    }
  }

  /** The pipeline removes nothing; it creates or changes only the outputs of
      the runs it made, and every run that succeeded left its output behind
      as a regular file (see `Wrote`). */
  lemma PipelineFiles(fs: Fs, dir: Path, pages: seq<string>, runs: seq<ToolRun>)
    requires |runs| >= |pages| + 3
    ensures Wrote(fs, dir, pages, runs, Pipeline(fs, dir, pages, runs))
  {
    var s0 := AfterContrast(fs, dir, pages, runs);
    AfterContrastReached(fs, dir, pages, runs);
    AfterContrastWrote(fs, dir, pages, runs);
    LaterStagesWrote(fs, dir, pages, runs, s0, |pages|);
  }

  /** Every planned output is named with a `_`, so none is a scanned page. */
  lemma PlannedOutputsAreDerived(dir: Path, pages: seq<string>)
    requires forall p | p in pages :: IsPageName(p)
    ensures forall i | 0 <= i < |pages| + 3 ::
      |PlannedOutputs(dir, pages)[i]| == |dir| + 1
      && PlannedOutputs(dir, pages)[i][..|dir|] == dir
      && '_' in PlannedOutputs(dir, pages)[i][|dir|]
  {
    var outs := PlannedOutputs(dir, pages);
    forall i | 0 <= i < |pages| + 3
      ensures |outs[i]| == |dir| + 1 && outs[i][..|dir|] == dir && '_' in outs[i][|dir|]
    {
      if i < |pages| {
        ProcessedNameFacts(pages[i]);
      } else {
        assert CombinedTif[0] == '_' && CombinedPdf[0] == '_' && FinalPdf[0] == '_';
      }
    }
  }

  /** Distinct pages give distinct planned outputs. */
  lemma PlannedOutputsDistinct(dir: Path, pages: seq<string>)
    requires NoDuplicates(pages) && forall p | p in pages :: IsPageName(p)
    ensures forall i, j | 0 <= i < j < |pages| + 3 :: PlannedOutputs(dir, pages)[i] != PlannedOutputs(dir, pages)[j]
  {
    var outs := PlannedOutputs(dir, pages);
    forall i, j | 0 <= i < j < |pages| + 3
      ensures outs[i] != outs[j]
    {
      assert outs[i][|dir|] != outs[j][|dir|] by {
        if j < |pages| {
          if ProcessedName(pages[i]) == ProcessedName(pages[j]) {
            ProcessedNameInjective(pages[i], pages[j]);
          }
        } else if i < |pages| {
          ProcessedNameFacts(pages[i]);
        }
      }
    }
  }

  /** The pipeline never changes a scanned page. */
  lemma PipelineKeepsPages(fs: Fs, dir: Path, pages: seq<string>, runs: seq<ToolRun>)
    requires |runs| >= |pages| + 3
    requires forall p | p in pages :: IsPageName(p)
    ensures var r := Pipeline(fs, dir, pages, runs);
      forall p | p in pages :: (dir + [p] in r.fs <==> dir + [p] in fs)
                               && (dir + [p] in fs ==> r.fs[dir + [p]] == fs[dir + [p]])
  {
    var r := Pipeline(fs, dir, pages, runs);
    var outs := PlannedOutputs(dir, pages);
    PipelineFiles(fs, dir, pages, runs);
    PlannedOutputsAreDerived(dir, pages);
    forall p | p in pages
      ensures dir + [p] !in outs[..|r.calls|]
    {
      var q := dir + [p];
      assert q[|dir|] == p;
    }
  }

  /** A run that was never made leaves its output as it was: after a failure,
      the outputs of the later stages are untouched. */
  lemma PipelineLeavesLaterOutputs(fs: Fs, dir: Path, pages: seq<string>, runs: seq<ToolRun>)
    requires |runs| >= |pages| + 3
    requires NoDuplicates(pages) && forall p | p in pages :: IsPageName(p)
    ensures var r := Pipeline(fs, dir, pages, runs);
            var outs := PlannedOutputs(dir, pages);
      forall i | |r.calls| <= i < |pages| + 3 ::
        (outs[i] in r.fs <==> outs[i] in fs) && (outs[i] in fs ==> r.fs[outs[i]] == fs[outs[i]])
  {
    var r := Pipeline(fs, dir, pages, runs);
    var outs := PlannedOutputs(dir, pages);
    PipelineFiles(fs, dir, pages, runs);
    PlannedOutputsDistinct(dir, pages);
    forall i | |r.calls| <= i < |pages| + 3
      ensures outs[i] !in outs[..|r.calls|]
    {
    }
  }

  /** Processing a directory with pages keeps it a directory, and a later
      `read_dir` of it finds the same pages: the files it adds are never
      taken for scanned pages. */
  lemma ProcessDocumentRediscovers(fs: Fs, dir: Path, listing: seq<string>, runs: seq<ToolRun>, relisting: seq<string>)
    requires IsDir(fs, dir) && Lists(fs, dir, listing)
    requires |runs| >= |listing| + 3
    requires |DiscoverPages(listing)| > 0
    requires Lists(ProcessDocument(fs, dir, listing, runs).fs, dir, relisting)
    ensures IsDir(ProcessDocument(fs, dir, listing, runs).fs, dir)
    ensures forall n :: n in DiscoverPages(relisting) <==> n in DiscoverPages(listing)
  {
    var pages := DiscoverPages(listing);
    var r := ProcessDocument(fs, dir, listing, runs);
    var outs := PlannedOutputs(dir, pages);
    PipelineFiles(fs, dir, pages, runs);
    PlannedOutputsAreDerived(dir, pages);
    assert dir !in outs[..|r.calls|];
    forall n | IsPageName(n)
      ensures dir + [n] in r.fs <==> dir + [n] in fs
    {
      var q := dir + [n];
      assert q[|dir|] == n;
      assert q !in outs[..|r.calls|];
    }
  }
}

=== FILE: scan.dfy ===
/** Scan planning of `src/scan.rs`: which modes a scanner offers, how a mode
    becomes a `scanimage` source, the exact `scanimage` argument vector, the
    sequence of `scanimage` runs for a mode, scanner selection, and the
    staging-directory discipline of a whole document scan.

    Prompts and `scanimage` exit statuses are inputs: each prompt answer is an
    `Option` whose `None` is a cancelled prompt, and `scanOk[i]` is whether the
    i-th `scanimage` run exited successfully. A run is recorded as the batch
    `_scanimage` was asked for; `ScanimageArgs` gives its argument vector. */
module Scan {
  import opened Base
  import opened Text
  import opened FileSystem
  import opened Config
  import FsUtils

  datatype ScanMode =
    | AdfSingleSided
    | AdfDuplex
    | AdfManualDuplex
    | Flatbed(pageCount: nat)

  datatype Resolution = Normal | High

  datatype ScanError =
    | DirectoryError(cause: FsError)  // preparing or committing the staging directory failed
    | PromptCancelled                 // the operator cancelled a prompt
    | SourceUnavailable               // the scanner has no source for the chosen mode
    | UserAborted                     // the operator declined to scan the next flatbed page
    | ScanimageFailed                 // `scanimage` exited unsuccessfully
    | NoScanners                      // the selection prompt refuses an empty scanner list
    | NoScanModes                     // the mode prompt refuses an empty menu

  // ---------------------------------------------------------------------------
  // Scan modes offered by a scanner

  /** Position of a mode in the menu: single-sided, duplex, manual duplex, flatbed. */
  function MenuRank(m: ScanMode): nat
  {
    match m
    case AdfSingleSided => 0
    case AdfDuplex => 1
    case AdfManualDuplex => 2
    case Flatbed(_) => 3
  }

  /** A mode is on the menu iff the source it needs is configured; both
      single-sided and manual-duplex feeding need the single-sided feeder, and
      flatbed appears with the page count still unset (zero). */
  predicate IsOffered(sources: ScannerSources, m: ScanMode)
  {
    match m
    case AdfSingleSided => sources.adfSingle.Some?
    case AdfDuplex => sources.adfDuplex.Some?
    case AdfManualDuplex => sources.adfSingle.Some?
    case Flatbed(n) => n == 0 && sources.flatbed.Some?
  }

  /** `ScanMode::options`. */
  function Options(sources: ScannerSources): (r: seq<ScanMode>)
    ensures forall m :: m in r <==> IsOffered(sources, m)
    ensures forall i, j | 0 <= i < j < |r| :: MenuRank(r[i]) < MenuRank(r[j])
  {
    (if sources.adfSingle.Some? then [AdfSingleSided] else [])
    + (if sources.adfDuplex.Some? then [AdfDuplex] else [])
    + (if sources.adfSingle.Some? then [AdfManualDuplex] else [])
    + (if sources.flatbed.Some? then [Flatbed(0)] else [])
  }

  /** A scanner with no sources offers nothing; one with only the single-sided
      feeder offers exactly single-sided and manual duplex, in that order. */
  lemma OptionsExamples(sources: ScannerSources)
    ensures sources.adfSingle.None? && sources.adfDuplex.None? && sources.flatbed.None? ==> Options(sources) == []
    ensures sources.adfSingle.Some? && sources.adfDuplex.None? && sources.flatbed.None? ==>
              Options(sources) == [AdfSingleSided, AdfManualDuplex]
  {
  }

  // ---------------------------------------------------------------------------
  // Resolution

  function AsDpi(r: Resolution): nat
  {
    match r
    case Normal => 300
    case High => 600
  }

  /** `Resolution::default`. */
  function DefaultResolution(): (r: Resolution)
    ensures AsDpi(r) == 300
  {
    Normal
  }

  /** The options prompt of `scan_document`: high resolution iff it was ticked. */
  function ChooseResolution(highDpiTicked: bool): (r: Resolution)
    ensures r == High <==> highDpiTicked
    ensures AsDpi(r) == (if highDpiTicked then 600 else 300)
  {
    if highDpiTicked then High else Normal
  }

  /** The two resolutions scan at 300 and 600 DPI, so they are told apart by their DPI. */
  lemma AsDpiValues(r: Resolution, s: Resolution)
    ensures AsDpi(Normal) == 300 && AsDpi(High) == 600
    ensures AsDpi(r) == AsDpi(s) ==> r == s
  {
  }

  // ---------------------------------------------------------------------------
  // Source resolution

  /** The `get_source!` lookup of `run_scanimage`. */
  function ResolveSource(sources: ScannerSources, m: ScanMode): (r: Result<string, ScanError>)
    ensures r.Ok? <==> IsOffered(sources, if m.Flatbed? then Flatbed(0) else m)
    ensures r.Err? ==> r.error == SourceUnavailable
    ensures r.Ok? && (m == AdfSingleSided || m == AdfManualDuplex) ==> sources.adfSingle == Some(r.value)
    ensures r.Ok? && m == AdfDuplex ==> sources.adfDuplex == Some(r.value)
    ensures r.Ok? && m.Flatbed? ==> sources.flatbed == Some(r.value)
  {
    var source := match m
      case AdfSingleSided => sources.adfSingle
      case AdfDuplex => sources.adfDuplex
      case AdfManualDuplex => sources.adfSingle
      case Flatbed(_) => sources.flatbed;
    match source
    case Some(s) => Ok(s)
    case None => Err(SourceUnavailable)
  }

  /** Every mode on the menu resolves to a source, whatever page count the
      operator later gives a flatbed scan. */
  lemma OfferedModesResolve(sources: ScannerSources, m: ScanMode, pages: nat)
    requires m in Options(sources)
    ensures ResolveSource(sources, m).Ok?
    ensures m.Flatbed? ==> ResolveSource(sources, Flatbed(pages)).Ok?
  {
  }

  // ---------------------------------------------------------------------------
  // The scanimage argument vector

  const FixedPageSize: seq<string> := ["-x", "210", "-y", "297"]

  /** `_scanimage`: the arguments `scanimage` is called with. */
  function ScanimageArgs(dir: Path, source: string, start: nat, count: Option<nat>,
                         res: Resolution, extra: seq<string>): (args: seq<string>)
    ensures |args| == 9 + (if count.Some? then 1 else 0) + |extra|
    ensures args[0] == "--format=tiff"
    ensures args[1] == "--batch=" + Render(dir + ["%d.tif"])
    ensures args[2] == "--batch-start=" + NatToString(1000 + start)
    ensures count.Some? ==> args[3] == "--batch-count=" + NatToString(count.value)
    ensures var k := if count.Some? then 4 else 3;
            && args[k] == "--resolution=" + NatToString(AsDpi(res))
            && args[k + 1..k + 5] == FixedPageSize
            && args[k + 5] == "--source=" + source
            && args[k + 6..] == extra
  {
    ["--format=tiff",
     "--batch=" + Render(dir + ["%d.tif"]),
     "--batch-start=" + NatToString(1000 + start)]
    + (match count case Some(n) => ["--batch-count=" + NatToString(n)] case None => [])
    + ["--resolution=" + NatToString(AsDpi(res))]
    + FixedPageSize
    + ["--source=" + source]
    + extra
  }

  /** What `scanimage` is asked to do, as it reads its command line. */
  datatype ScanRequest = ScanRequest(
    batchTemplate: string,
    firstNumber: nat,
    count: Option<nat>,
    dpi: nat,
    source: string,
    extra: seq<string>)

  predicate HasDecimalAfter(s: string, prefix: string)
  {
    StartsWith(s, prefix) && IsDecimal(s[|prefix|..])
  }

  function DecimalAfter(s: string, prefix: string): nat
    requires HasDecimalAfter(s, prefix)
  {
    ParseNat(s[|prefix|..])
  }

  /** Reads an argument vector of the shape `_scanimage` builds; `None` for
      anything else. */
  function DecodeScanArgs(args: seq<string>): Option<ScanRequest>
  {
    if |args| < 9 || args[0] != "--format=tiff" || !StartsWith(args[1], "--batch=")
       || !HasDecimalAfter(args[2], "--batch-start=")
    then None
    else
      var counted := StartsWith(args[3], "--batch-count=");
      var k := if counted then 4 else 3;
      if (counted && !HasDecimalAfter(args[3], "--batch-count=")) || |args| < k + 6
         || !HasDecimalAfter(args[k], "--resolution=") || args[k + 1..k + 5] != FixedPageSize
         || !StartsWith(args[k + 5], "--source=")
      then None
      else
        Some(ScanRequest(
          args[1][|"--batch="|..],
          DecimalAfter(args[2], "--batch-start="),
          if counted then Some(DecimalAfter(args[3], "--batch-count=")) else None,
          DecimalAfter(args[k], "--resolution="),
          args[k + 5][|"--source="|..],
          args[k + 6..]))
  }

  /** A field written as a prefix followed by a value starts with the prefix,
      and the value follows it. */
  lemma PrefixedField(prefix: string, value: string)
    ensures StartsWith(prefix + value, prefix) && (prefix + value)[|prefix|..] == value
  {
    assert (prefix + value)[..|prefix|] == prefix;
  }

  lemma DecimalAfterRoundTrip(prefix: string, n: nat)
    ensures HasDecimalAfter(prefix + NatToString(n), prefix)
    ensures DecimalAfter(prefix + NatToString(n), prefix) == n
  {
    ParseNatToString(n);
    assert (prefix + NatToString(n))[|prefix|..] == NatToString(n);
  }

  /** The decoder accepts a vector with the fields in `_scanimage`'s order and
      reads each field back. */
  lemma DecodeScanArgsFields(args: seq<string>, template: string, first: nat, count: Option<nat>,
                             dpi: nat, source: string, extra: seq<string>)
    requires var k := if count.Some? then 4 else 3;
      && |args| == k + 6 + |extra|
      && args[0] == "--format=tiff"
      && StartsWith(args[1], "--batch=") && args[1][|"--batch="|..] == template
      && HasDecimalAfter(args[2], "--batch-start=") && DecimalAfter(args[2], "--batch-start=") == first
      && (StartsWith(args[3], "--batch-count=") <==> count.Some?)
      && (count.Some? ==> HasDecimalAfter(args[3], "--batch-count=")
                          && DecimalAfter(args[3], "--batch-count=") == count.value)
      && HasDecimalAfter(args[k], "--resolution=") && DecimalAfter(args[k], "--resolution=") == dpi
      && args[k + 1..k + 5] == FixedPageSize
      && StartsWith(args[k + 5], "--source=") && args[k + 5][|"--source="|..] == source
      && args[k + 6..] == extra
    ensures DecodeScanArgs(args) == Some(ScanRequest(template, first, count, dpi, source, extra))
  {
  }

  /** The leading fields of the vector: format, batch template and first number. */
  lemma ScanimageArgsHead(dir: Path, source: string, start: nat, count: Option<nat>,
                          res: Resolution, extra: seq<string>)
    ensures var args := ScanimageArgs(dir, source, start, count, res, extra);
      && StartsWith(args[1], "--batch=") && args[1][|"--batch="|..] == Render(dir + ["%d.tif"])
      && HasDecimalAfter(args[2], "--batch-start=") && DecimalAfter(args[2], "--batch-start=") == 1000 + start
  {
    PrefixedField("--batch=", Render(dir + ["%d.tif"]));
    DecimalAfterRoundTrip("--batch-start=", 1000 + start);
  }

  /** The fourth field is a page count exactly when one was given. */
  lemma ScanimageArgsCount(dir: Path, source: string, start: nat, count: Option<nat>,
                           res: Resolution, extra: seq<string>)
    ensures var args := ScanimageArgs(dir, source, start, count, res, extra);
      && (StartsWith(args[3], "--batch-count=") <==> count.Some?)
      && (count.Some? ==> HasDecimalAfter(args[3], "--batch-count=")
                          && DecimalAfter(args[3], "--batch-count=") == count.value)
  {
    var args := ScanimageArgs(dir, source, start, count, res, extra);
    if count.Some? {
      DecimalAfterRoundTrip("--batch-count=", count.value);
    } else {
      assert args[3][2] == 'r';
    }
  }

  /** The trailing fields of the vector: resolution, page size, source and the
      scanner's extra arguments. */
  lemma ScanimageArgsTail(dir: Path, source: string, start: nat, count: Option<nat>,
                          res: Resolution, extra: seq<string>)
    ensures var args := ScanimageArgs(dir, source, start, count, res, extra);
            var k := if count.Some? then 4 else 3;
      && HasDecimalAfter(args[k], "--resolution=") && DecimalAfter(args[k], "--resolution=") == AsDpi(res)
      && StartsWith(args[k + 5], "--source=") && args[k + 5][|"--source="|..] == source
  {
    PrefixedField("--source=", source);
    DecimalAfterRoundTrip("--resolution=", AsDpi(res));
  }

  /** The argument vector is unambiguous: `scanimage` reads back exactly the
      batch template, the first page number 1000 + start, the page count if one
      was given, the DPI, the source and the scanner's extra arguments. The
      batch template is the directory as displayed, followed by `/%d.tif`. */
  lemma ScanimageArgsDecode(dir: Path, source: string, start: nat, count: Option<nat>,
                            res: Resolution, extra: seq<string>)
    ensures DecodeScanArgs(ScanimageArgs(dir, source, start, count, res, extra))
            == Some(ScanRequest(Render(dir + ["%d.tif"]), 1000 + start, count, AsDpi(res), source, extra))
    ensures Render(dir + ["%d.tif"]) == (if |dir| == 0 then "/" else Render(dir) + "/") + "%d.tif"
  {
    RenderJoin(dir, "%d.tif");
    ScanimageArgsHead(dir, source, start, count, res, extra);
    ScanimageArgsCount(dir, source, start, count, res, extra);
    ScanimageArgsTail(dir, source, start, count, res, extra);
    DecodeScanArgsFields(ScanimageArgs(dir, source, start, count, res, extra),
                         Render(dir + ["%d.tif"]), 1000 + start, count, AsDpi(res), source, extra);
  }

  /** Name of the first page file of a batch starting at offset `start`. */
  function FirstPageFile(start: nat): string
  {
    NatToString(1000 + start) + ".tif"
  }

  /** Batch offset 0 writes `1000.tif` first, offset 4 writes `1004.tif`, and
      different offsets never write the same first file. */
  lemma FirstPageFiles(a: nat, b: nat)
    ensures FirstPageFile(0) == "1000.tif"
    ensures FirstPageFile(4) == "1004.tif"
    ensures FirstPageFile(a) == FirstPageFile(b) ==> a == b
  {
    assert NatToString(1000) == "1000";
    assert NatToString(1004) == "1004";
    if FirstPageFile(a) == FirstPageFile(b) {
      var x := NatToString(1000 + a);
      var y := NatToString(1000 + b);
      assert x == FirstPageFile(a)[..|FirstPageFile(a)| - 4];
      assert y == FirstPageFile(b)[..|FirstPageFile(b)| - 4];
      NatToStringInjective(1000 + a, 1000 + b);
    }
  }

  // ---------------------------------------------------------------------------
  // The scanimage runs of one scan

  /** One `_scanimage` call: the batch offset and the page count, if any. */
  datatype Batch = Batch(start: nat, count: Option<nat>)

  /** The `scanimage` runs made, and how the scan ended. */
  datatype ScanRun = ScanRun(calls: seq<Batch>, outcome: Outcome<ScanError>)

  /** Page `i` onwards of a flatbed scan of `n` pages: ask before each page,
      then scan exactly that page at batch offset `i`. */
  function FlatbedPages(i: nat, n: nat, confirm: seq<Option<bool>>, scanOk: seq<bool>): (r: ScanRun)
    requires i <= n <= |confirm| && n <= |scanOk|
    ensures |r.calls| <= n - i
    ensures forall j | 0 <= j < |r.calls| :: r.calls[j] == Batch(i + j, Some(1))
    ensures r.outcome.Pass? <==> forall j | i <= j < n :: confirm[j] == Some(true) && scanOk[j]
    ensures r.outcome.Pass? ==> |r.calls| == n - i
    decreases n - i
  {
    if i == n then ScanRun([], Pass)
    else match confirm[i]
      case None => ScanRun([], Fail(PromptCancelled))
      case Some(false) => ScanRun([], Fail(UserAborted))
      case Some(true) =>
        var call := Batch(i, Some(1));
        if !scanOk[i] then ScanRun([call], Fail(ScanimageFailed))
        else
          var rest := FlatbedPages(i + 1, n, confirm, scanOk);
          ScanRun([call] + rest.calls, rest.outcome)
  }

  /** The first page that is not both confirmed and scanned decides how a
      flatbed scan ends: a declined or cancelled confirmation stops it before
      that page's run, a failed run stops it right after. */
  lemma {:induction false} FlatbedStopsAt(i: nat, n: nat, confirm: seq<Option<bool>>, scanOk: seq<bool>, k: nat)
    requires i <= k < n <= |confirm| && n <= |scanOk|
    requires forall j | i <= j < k :: confirm[j] == Some(true) && scanOk[j]
    requires !(confirm[k] == Some(true) && scanOk[k])
    ensures var r := FlatbedPages(i, n, confirm, scanOk);
            && (confirm[k] == Some(false) ==> |r.calls| == k - i && r.outcome == Fail(UserAborted))
            && (confirm[k] == None ==> |r.calls| == k - i && r.outcome == Fail(PromptCancelled))
            && (confirm[k] == Some(true) ==> |r.calls| == k - i + 1 && r.outcome == Fail(ScanimageFailed))
    decreases k - i
  {
    if i < k {
      assert confirm[i] == Some(true) && scanOk[i];
      FlatbedStopsAt(i + 1, n, confirm, scanOk, k);
    }
  }

  /** `run_scanimage`: one unbounded batch for the feeder modes; for flatbed one
      single-page batch per page, each behind a confirmation. Manual duplex is
      scanned like single-sided: the flip-the-stack step is not implemented. */
  function RunScanimage(scanner: Scanner, m: ScanMode, confirm: seq<Option<bool>>, scanOk: seq<bool>): (r: ScanRun)
    requires |scanOk| >= 1
    requires m.Flatbed? ==> |confirm| >= m.pageCount && |scanOk| >= m.pageCount
    requires m.Flatbed? && scanner.sources.flatbed.Some? ==> m.pageCount > 0
    ensures ResolveSource(scanner.sources, m).Err? ==> r == ScanRun([], Fail(SourceUnavailable))
    ensures ResolveSource(scanner.sources, m).Ok? && !m.Flatbed? ==>
      && r.calls == [Batch(0, None)]
      && (r.outcome.Pass? <==> scanOk[0])
      && (!scanOk[0] ==> r.outcome == Fail(ScanimageFailed))
    ensures ResolveSource(scanner.sources, m).Ok? && m.Flatbed? ==>
      && |r.calls| <= m.pageCount
      && (forall j | 0 <= j < |r.calls| ::
            r.calls[j] == Batch(j, Some(1)))
      && (r.outcome.Pass? <==> forall j | 0 <= j < m.pageCount :: confirm[j] == Some(true) && scanOk[j])
      && (r.outcome.Pass? ==> |r.calls| == m.pageCount)
  {
    match ResolveSource(scanner.sources, m)
    case Err(e) => ScanRun([], Fail(e))
    case Ok(source) =>
      if !m.Flatbed? then
        ScanRun([Batch(0, None)], if scanOk[0] then Pass else Fail(ScanimageFailed))
      else
        FlatbedPages(0, m.pageCount, confirm, scanOk)
  }

  /** Declining the confirmation for page `k` (counting from 1) aborts the scan
      after exactly `k - 1` runs, provided the earlier pages went through. */
  lemma FlatbedDeclined(scanner: Scanner, n: nat, confirm: seq<Option<bool>>, scanOk: seq<bool>, k: nat)
    requires scanner.sources.flatbed.Some? && 1 <= k <= n <= |confirm| && n <= |scanOk|
    requires forall j | 0 <= j < k - 1 :: confirm[j] == Some(true) && scanOk[j]
    requires confirm[k - 1] == Some(false)
    ensures var r := RunScanimage(scanner, Flatbed(n), confirm, scanOk);
            |r.calls| == k - 1 && r.outcome == Fail(UserAborted)
  {
    FlatbedStopsAt(0, n, confirm, scanOk, k - 1);
  }

  // ---------------------------------------------------------------------------
  // Scanner selection

  /** `select_scanner`: the only scanner, or the operator's pick. An empty
      list is not checked by `select_scanner` itself; it reaches the selection
      prompt, which refuses to show an empty menu. */
  function SelectScanner(scanners: seq<Scanner>, choice: Option<nat>): (r: Result<Scanner, ScanError>)
    requires choice.Some? ==> choice.value < |scanners|
    ensures |scanners| == 1 ==> r == Ok(scanners[0])
    ensures |scanners| == 0 ==> r == Err(NoScanners)
    ensures r.Ok? ==> r.value in scanners
    ensures |scanners| > 1 ==> (r.Ok? <==> choice.Some?)
    ensures |scanners| > 1 && choice.Some? ==> r.value == scanners[choice.value]
    ensures |scanners| > 1 && r.Err? ==> r.error == PromptCancelled
  {
    if |scanners| == 1 then Ok(scanners[0])
    else if |scanners| == 0 then Err(NoScanners)
    else match choice
      case None => Err(PromptCancelled)
      case Some(i) => Ok(scanners[i])
  }

  /** With a single scanner the prompt is never consulted: any answer gives the same result. */
  lemma SelectSingleScannerIgnoresPrompt(s: Scanner, c1: Option<nat>, c2: Option<nat>)
    requires c1.Some? ==> c1.value < 1
    requires c2.Some? ==> c2.value < 1
    ensures SelectScanner([s], c1) == SelectScanner([s], c2) == Ok(s)
  {
  }

  // ---------------------------------------------------------------------------
  // A whole document scan

  /** Name of the staging directory inside the scans directory. */
  const StagingName := "current"

  /** The operator's answers to the prompts of `scan_document`, in the order
      they are asked: the mode menu (an index into it), the flatbed page count,
      whether high resolution was ticked, and the per-page confirmations. */
  datatype ScanAnswers = ScanAnswers(
    modeChoice: Option<nat>,
    pageCount: Option<nat>,
    highDpi: Option<bool>,
    confirmations: seq<Option<bool>>)

  /** What the prompts can answer: a menu index is in range (so an empty menu
      has no index to pick), the page-count
      prompt only accepts numbers of at least one, and every prompt and
      `scanimage` run that can be reached has an answer. */
  predicate AnswersFit(scanner: Scanner, a: ScanAnswers, scanOk: seq<bool>)
  {
    && (a.modeChoice.Some? ==> a.modeChoice.value < |Options(scanner.sources)|)
    && (a.pageCount.Some? ==> a.pageCount.value >= 1)
    && (a.pageCount.Some? ==> |a.confirmations| >= a.pageCount.value && |scanOk| >= a.pageCount.value)
    && |scanOk| >= 1
  }

  /** The mode to scan with: the menu's flatbed placeholder gets the page count. */
  function ChooseMode(offered: ScanMode, pageCount: Option<nat>): Option<ScanMode>
  {
    if offered.Flatbed? then
      match pageCount
      case None => None
      case Some(n) => Some(Flatbed(n))
    else Some(offered)
  }

  /** What the operator settled on before the first `scanimage` run: the mode,
      the resolution, and the scanner's name for the source. Batch `b` then
      runs `scanimage` with `ScanimageArgs(staging, source, b.start, b.count,
      resolution, additionalArgs)`. */
  datatype Settings = Settings(mode: ScanMode, resolution: Resolution, source: string)

  /** The filesystem after a document scan, the settings it ran with once all
      prompts were answered, its `scanimage` batches, and its outcome. */
  datatype DocumentScan = DocumentScan(fs: Fs, settings: Option<Settings>, calls: seq<Batch>,
                                       outcome: Outcome<ScanError>)

  /** The end of `scan_document` once every prompt is answered: run
      `scanimage` with the settings, and rename the staging directory to the
      timestamped document directory only if every run succeeded. */
  function ScanAndCommit(staged: Fs, scansDir: Path, scanner: Scanner, settings: Settings,
                         confirm: seq<Option<bool>>, scanOk: seq<bool>, timestamp: string): (r: DocumentScan)
    requires |scanOk| >= 1
    requires settings.mode.Flatbed? ==> |confirm| >= settings.mode.pageCount && |scanOk| >= settings.mode.pageCount
    requires settings.mode.Flatbed? && scanner.sources.flatbed.Some? ==> settings.mode.pageCount > 0
    ensures var run := RunScanimage(scanner, settings.mode, confirm, scanOk);
            var committed := Rename(staged, scansDir + [StagingName], scansDir + [timestamp]);
      && r.settings == Some(settings)
      && r.calls == run.calls
      && (run.outcome.Fail? ==> r.outcome == run.outcome && r.fs == staged)
      && (run.outcome.Pass? ==> r.fs == committed.fs && (r.outcome.Pass? <==> committed.outcome.Pass?))
    ensures r.outcome.Pass? ==> |r.calls| >= 1
    ensures r.outcome.Fail? && IsDir(staged, scansDir + [StagingName]) ==> IsDir(r.fs, scansDir + [StagingName])
    ensures r.outcome.Fail? ==> r.fs == staged
    ensures r.outcome.Pass? && timestamp != StagingName ==> scansDir + [StagingName] !in r.fs
    ensures r.outcome.Pass? && timestamp != StagingName && IsDir(staged, scansDir + [StagingName]) ==>
      IsDir(r.fs, scansDir + [timestamp])
  {
    var current := scansDir + [StagingName];
    var run := RunScanimage(scanner, settings.mode, confirm, scanOk);
    assert run.outcome.Pass? ==> |run.calls| >= 1 by {
      if run.outcome.Pass? && settings.mode.Flatbed? {
        assert ResolveSource(scanner.sources, settings.mode).Ok?;
        assert settings.mode.pageCount > 0;
      }
    }
    if run.outcome.Fail? then DocumentScan(staged, Some(settings), run.calls, run.outcome)
    else
      assert (scansDir + [timestamp])[|scansDir|] == timestamp && current[|scansDir|] == StagingName;
      var committed := Rename(staged, current, scansDir + [timestamp]);
      match committed.outcome
      case Pass => DocumentScan(committed.fs, Some(settings), run.calls, Pass)
      case Fail(e) => DocumentScan(committed.fs, Some(settings), run.calls, Fail(DirectoryError(e)))
  }

  /** `scan_document`: empty the staging directory, ask how and at what
      resolution to scan, run `scanimage`, and only then rename the staging
      directory to the timestamped document directory. */
  function ScanDocument(fs: Fs, scansDir: Path, scanner: Scanner, answers: ScanAnswers,
                        scanOk: seq<bool>, timestamp: string): (r: DocumentScan)
    requires AnswersFit(scanner, answers, scanOk)
    ensures var staged := FsUtils.EnsureEmptyDirExists(fs, scansDir + [StagingName]);
            && (staged.outcome.Fail? ==> r == DocumentScan(staged.fs, None, [], Fail(DirectoryError(staged.outcome.error))))
            && (r.outcome.Fail? ==> r.fs == staged.fs)
            && (r.outcome.Fail? && staged.outcome.Pass? ==> IsDir(r.fs, scansDir + [StagingName]))
    ensures r.outcome.Pass? ==> |r.calls| >= 1 && r.settings.Some?
    ensures r.settings.Some? ==>
      && answers.highDpi == Some(r.settings.value.resolution == High)
      && ResolveSource(scanner.sources, r.settings.value.mode) == Ok(r.settings.value.source)
    ensures r.settings.None? ==> r.calls == []
    ensures r.settings.Some? && r.settings.value.mode.Flatbed? ==>
      answers.pageCount == Some(r.settings.value.mode.pageCount)
    ensures r.settings.Some? ==>
      var staged := FsUtils.EnsureEmptyDirExists(fs, scansDir + [StagingName]);
      var run := RunScanimage(scanner, r.settings.value.mode, answers.confirmations, scanOk);
      var committed := Rename(staged.fs, scansDir + [StagingName], scansDir + [timestamp]);
      && staged.outcome.Pass?
      && r.calls == run.calls
      && (run.outcome.Fail? ==> r.outcome == run.outcome && r.fs == staged.fs)
      && (run.outcome.Pass? ==> r.fs == committed.fs && (r.outcome.Pass? <==> committed.outcome.Pass?))
    ensures r.outcome.Pass? && timestamp != StagingName ==>
      && scansDir + [StagingName] !in r.fs
      && IsDir(r.fs, scansDir + [timestamp])
  {
    var current := scansDir + [StagingName];
    var staged := FsUtils.EnsureEmptyDirExists(fs, current);
    if staged.outcome.Fail? then DocumentScan(staged.fs, None, [], Fail(DirectoryError(staged.outcome.error)))
    else if |Options(scanner.sources)| == 0 then DocumentScan(staged.fs, None, [], Fail(NoScanModes))
    else match answers.modeChoice
      case None => DocumentScan(staged.fs, None, [], Fail(PromptCancelled))
      case Some(i) =>
        var offered := Options(scanner.sources)[i];
        match ChooseMode(offered, answers.pageCount)
        case None => DocumentScan(staged.fs, None, [], Fail(PromptCancelled))
        case Some(m) =>
          match answers.highDpi
          case None => DocumentScan(staged.fs, None, [], Fail(PromptCancelled))
          case Some(high) =>
            match ResolveSource(scanner.sources, m)
            case Err(e) => DocumentScan(staged.fs, None, [], Fail(e))
            case Ok(source) =>
              ScanAndCommit(staged.fs, scansDir, scanner, Settings(m, ChooseResolution(high), source),
                            answers.confirmations, scanOk, timestamp)
  }

  /** The mode a document scan runs with is one the scanner has a source for,
      and a flatbed scan runs with the operator's page count of at least one
      instead of the menu's placeholder zero. */
  lemma ChosenModeIsExecutable(scanner: Scanner, answers: ScanAnswers, scanOk: seq<bool>, i: nat)
    requires AnswersFit(scanner, answers, scanOk)
    requires answers.modeChoice == Some(i)
    ensures var offered := Options(scanner.sources)[i];
            ChooseMode(offered, answers.pageCount).Some? ==>
              var m := ChooseMode(offered, answers.pageCount).value;
              && ResolveSource(scanner.sources, m).Ok?
              && (m.Flatbed? ==> m.pageCount >= 1)
  {
    var offered := Options(scanner.sources)[i];
    assert offered in Options(scanner.sources);
  }

  /** Once the staging directory is ready, a document scan follows the
      operator's answers: a scanner without sources offers an empty mode menu,
      which the prompt refuses; otherwise the scan goes ahead exactly when
      every prompt was answered, with the menu entry picked (a flatbed entry
      taking the operator's page count), and any cancelled prompt ends it
      with `PromptCancelled` before `scanimage` runs. */
  lemma ScanDocumentFollowsAnswers(fs: Fs, scansDir: Path, scanner: Scanner, answers: ScanAnswers,
                                   scanOk: seq<bool>, timestamp: string)
    requires AnswersFit(scanner, answers, scanOk)
    requires FsUtils.EnsureEmptyDirExists(fs, scansDir + [StagingName]).outcome.Pass?
    ensures var r := ScanDocument(fs, scansDir, scanner, answers, scanOk, timestamp);
      && (|Options(scanner.sources)| == 0 ==> r.settings.None? && r.outcome == Fail(NoScanModes))
      && (|Options(scanner.sources)| > 0 && answers.modeChoice.None? ==>
            r.settings.None? && r.outcome == Fail(PromptCancelled))
      && (answers.modeChoice.Some? ==>
            var offered := Options(scanner.sources)[answers.modeChoice.value];
            && (r.settings.Some? <==> (offered.Flatbed? ==> answers.pageCount.Some?) && answers.highDpi.Some?)
            && (r.settings.Some? ==>
                  r.settings.value.mode == if offered.Flatbed? then Flatbed(answers.pageCount.value) else offered)
            && (r.settings.None? ==> r.outcome == Fail(PromptCancelled) && r.calls == []))
  {
    if answers.modeChoice.Some? {
      ChosenModeIsExecutable(scanner, answers, scanOk, answers.modeChoice.value);
    }
  }

  /** A scan whose `scanimage` stage fails is never committed: the staging
      directory stays where it is and nothing is renamed. */
  lemma FailedScanStaysStaged(fs: Fs, scansDir: Path, scanner: Scanner, answers: ScanAnswers,
                              scanOk: seq<bool>, timestamp: string)
    requires AnswersFit(scanner, answers, scanOk)
    requires FsUtils.EnsureEmptyDirExists(fs, scansDir + [StagingName]).outcome.Pass?
    requires !scanOk[0]
    ensures var r := ScanDocument(fs, scansDir, scanner, answers, scanOk, timestamp);
            && r.outcome.Fail?
            && IsDir(r.fs, scansDir + [StagingName])
  {
    var r := ScanDocument(fs, scansDir, scanner, answers, scanOk, timestamp);
    if answers.modeChoice.Some? {
      ChosenModeIsExecutable(scanner, answers, scanOk, answers.modeChoice.value);
    }
  }

  /** In a scans directory whose staging name is free or a directory, staging
      succeeds, and the staged directory can always be renamed to a timestamp
      that does not exist yet. */
  lemma FreshTimestampCommits(fs: Fs, scansDir: Path, timestamp: string)
    requires IsDir(fs, scansDir) && !IsFile(fs, scansDir + [StagingName])
    requires timestamp != StagingName && scansDir + [timestamp] !in fs
    ensures var staged := FsUtils.EnsureEmptyDirExists(fs, scansDir + [StagingName]);
      && staged.outcome.Pass?
      && Rename(staged.fs, scansDir + [StagingName], scansDir + [timestamp]).outcome.Pass?
  {
    var current := scansDir + [StagingName];
    var target := scansDir + [timestamp];
    var staged := FsUtils.EnsureEmptyDirExists(fs, current);
    assert Parent(current) == scansDir && Parent(target) == scansDir;
    assert current[|scansDir|] == StagingName && target[|scansDir|] == timestamp;
    assert !Within(current, scansDir) && !Within(current, target) && !Within(target, current);
  }

  /** The flatbed scenario: a flatbed-only scanner, two pages, both confirmed
      and scanned, makes exactly two single-page runs at offsets 0 and 1 and
      commits the document. */
  lemma TwoPageFlatbedScan(fs: Fs, scansDir: Path, scanner: Scanner, scanOk: seq<bool>, timestamp: string)
    requires scanner.sources == ScannerSources(None, None, Some("Flatbed"))
    requires IsDir(fs, scansDir) && !IsFile(fs, scansDir + [StagingName])
    requires timestamp != StagingName && scansDir + [timestamp] !in fs
    requires scanOk == [true, true]
    ensures var r := ScanDocument(fs, scansDir, scanner,
                                  ScanAnswers(Some(0), Some(2), Some(false), [Some(true), Some(true)]),
                                  scanOk, timestamp);
            && r.outcome.Pass?
            && r.settings == Some(Settings(Flatbed(2), Normal, "Flatbed"))
            && r.calls == [Batch(0, Some(1)), Batch(1, Some(1))]
  {
    FreshTimestampCommits(fs, scansDir, timestamp);
    var confirm := [Some(true), Some(true)];
    assert Options(scanner.sources) == [Flatbed(0)];
    assert ChooseMode(Flatbed(0), Some(2)) == Some(Flatbed(2));
    assert FlatbedPages(1, 2, confirm, scanOk) == ScanRun([Batch(1, Some(1))], Pass);
    assert FlatbedPages(0, 2, confirm, scanOk) == ScanRun([Batch(0, Some(1)), Batch(1, Some(1))], Pass);
  }
}

=== FILE: text.dfy ===
/** String operations the source borrows from Rust's `str` and `format!`:
    prefix and suffix tests, `str::replace`, and decimal rendering of an
    unsigned integer, with a decimal parser as its inverse. */
module Text {

  predicate StartsWith(s: string, prefix: string)
  {
    |prefix| <= |s| && s[..|prefix|] == prefix
  }

  predicate EndsWith(s: string, suffix: string)
  {
    |suffix| <= |s| && s[|s| - |suffix|..] == suffix
  }

  /** True iff `pat` occurs in `s` starting at index `i`. */
  predicate OccursAt(s: string, pat: string, i: nat)
  {
    i + |pat| <= |s| && s[i..i + |pat|] == pat
  }

  /** `s.replace(pat, rep)`: every non-overlapping occurrence of `pat`, found
      scanning from the left, is replaced by `rep`. */
  function ReplaceAll(s: string, pat: string, rep: string): string
    requires |pat| > 0
    decreases |s|
  {
    if |s| == 0 then ""
    else if StartsWith(s, pat) then rep + ReplaceAll(s[|pat|..], pat, rep)
    else [s[0]] + ReplaceAll(s[1..], pat, rep)
  }

  /** Replacing is undone by replacing back, provided the first character of
      `rep` never occurs in `s`: then every occurrence of `rep` in the result
      is one that the first replacement put there. */
  lemma {:induction false} ReplaceAllRoundTrip(s: string, pat: string, rep: string)
    requires |pat| > 0 && |rep| > 0
    requires rep[0] !in s
    ensures ReplaceAll(ReplaceAll(s, pat, rep), rep, pat) == s
    decreases |s|
  {
    if |s| == 0 {
    } else if StartsWith(s, pat) {
      var rest := s[|pat|..];
      assert forall c :: c in rest ==> c in s;
      ReplaceAllRoundTrip(rest, pat, rep);
      var t := rep + ReplaceAll(rest, pat, rep);
      assert StartsWith(t, rep);
      assert t[|rep|..] == ReplaceAll(rest, pat, rep);
      calc {
        ReplaceAll(t, rep, pat);
        pat + ReplaceAll(ReplaceAll(rest, pat, rep), rep, pat);
        pat + rest;
        { assert s[..|pat|] == pat; }
        s;
      }
    } else {
      var rest := s[1..];
      assert forall c :: c in rest ==> c in s;
      ReplaceAllRoundTrip(rest, pat, rep);
      var t := [s[0]] + ReplaceAll(rest, pat, rep);
      assert t[0] == s[0] && s[0] != rep[0];
      assert !StartsWith(t, rep);
      assert t[1..] == ReplaceAll(rest, pat, rep);
      calc {
        ReplaceAll(t, rep, pat);
        [s[0]] + ReplaceAll(ReplaceAll(rest, pat, rep), rep, pat);
        [s[0]] + rest;
        s;
      }
    }
  }

  /** Replacing is injective on strings that avoid the first character of `rep`. */
  lemma ReplaceAllInjective(s: string, t: string, pat: string, rep: string)
    requires |pat| > 0 && |rep| > 0
    requires rep[0] !in s && rep[0] !in t
    requires ReplaceAll(s, pat, rep) == ReplaceAll(t, pat, rep)
    ensures s == t
  {
    ReplaceAllRoundTrip(s, pat, rep);
    ReplaceAllRoundTrip(t, pat, rep);
  }

  /** Once `pat` occurs in `s`, the first character of `rep` occurs in the result. */
  lemma {:induction false} ReplaceAllIntroduces(s: string, pat: string, rep: string, i: nat)
    requires |pat| > 0 && |rep| > 0
    requires OccursAt(s, pat, i)
    ensures rep[0] in ReplaceAll(s, pat, rep)
    decreases |s|
  {
    if StartsWith(s, pat) {
      assert ReplaceAll(s, pat, rep)[0] == rep[0];
    } else {
      assert i != 0;
      assert s[1..][i - 1..i - 1 + |pat|] == s[i..i + |pat|];
      ReplaceAllIntroduces(s[1..], pat, rep, i - 1);
      var r := ReplaceAll(s[1..], pat, rep);
      var k :| 0 <= k < |r| && r[k] == rep[0];
      assert ([s[0]] + r)[k + 1] == rep[0];
    }
  }

  // ---------------------------------------------------------------------------
  // Decimal rendering, as `format!("{}", n)` does for an unsigned integer.

  predicate IsDigit(c: char)
  {
    '0' <= c <= '9'
  }

  function DigitChar(d: nat): (c: char)
    requires d < 10
    ensures IsDigit(c)
  {
    ('0' as int + d) as char
  }

  function DigitValue(c: char): (d: nat)
    requires IsDigit(c)
    ensures d < 10
  {
    c as int - '0' as int
  }

  /** A non-empty run of ASCII digits. */
  predicate IsDecimal(s: string)
  {
    |s| > 0 && forall i :: 0 <= i < |s| ==> IsDigit(s[i])
  }

  /** The decimal rendering of `n`, most significant digit first, no leading zeros. */
  function NatToString(n: nat): string
    decreases n
  {
    if n < 10 then [DigitChar(n)] else NatToString(n / 10) + [DigitChar(n % 10)]
  }

  /** The value of a string of decimal digits. */
  function ParseNat(s: string): nat
    requires forall i :: 0 <= i < |s| ==> IsDigit(s[i])
    decreases |s|
  {
    if |s| == 0 then 0 else 10 * ParseNat(s[..|s| - 1]) + DigitValue(s[|s| - 1])
  }

  /** Rendering a number and parsing it back gives the number: the rendering is
      a decimal string that denotes exactly `n`. */
  lemma {:induction false} ParseNatToString(n: nat)
    ensures IsDecimal(NatToString(n))
    ensures ParseNat(NatToString(n)) == n
    decreases n
  {
    if n >= 10 {
      ParseNatToString(n / 10);
      var s := NatToString(n);
      var prefix := NatToString(n / 10);
      assert s == prefix + [DigitChar(n % 10)];
      assert s[..|s| - 1] == prefix;
      assert forall i :: 0 <= i < |s| ==> IsDigit(s[i]) by {
        forall i | 0 <= i < |s|
          ensures IsDigit(s[i])
        {
          if i < |prefix| {
            assert s[i] == prefix[i];
          }
        }
      }
    }
  }

  /** Decimal rendering is injective: distinct numbers render differently. */
  lemma NatToStringInjective(m: nat, n: nat)
    requires NatToString(m) == NatToString(n)
    ensures m == n
  {
    ParseNatToString(m);
    ParseNatToString(n);
  }
}
